=== FILE: README.md ===
# Movie catalogue — a Dafny model

This project models the core of a small movie-catalogue program. The
catalogue maps each title to a record holding a year, a rating and a poster.
The model covers:

- the storage interface (`list_movies`, `add_movie`, `delete_movie`,
  `update_movie`) and the backends behind it:
  - the JSON file store;
  - the CSV file store, with its row decoding and encoding;
  - the module-level draft store over one global data file;
- the interactive application over a storage backend:
  - its menu loop;
  - the handlers for listing, adding, deleting and updating;
  - statistics (median, best and worst);
  - search suggestions, the rating and year sorts, and the three-criterion
    filter;
- the stand-alone list-based manager: its case-insensitive delete, its
  `'N/A'`-filtered stats, its listing, its OMDb-backed add, and the
  command line that splits each input line into an action and an argument.

A Python dict is ordered by insertion, and that order shows wherever
ties are broken, entries are filtered or rows are written. So a catalogue
is a `Catalog`: a sequence of `Entry(title, movie)` whose titles are
distinct.

- `Get`, `Put`, `Remove` and `SetRating` give it dict semantics.
- Overwriting a title keeps the title's position.
- Ratings are `real`, and only ever compared.
- Converting text to a float is a parameter of the model: a partial
  function.
- Each file is a field of a class. It holds the last snapshot saved, or
  `None` when the file does not exist.
- The storage interface is a datatype with one case per backend. Its four
  operations dispatch on that case.
- The prompts, the fuzzy ranking, the random draw and the OMDb answer are
  inputs to the operations.

Modules:

| Module | Contents |
|---|---|
| `Wrappers` | `Option`, `Result` and `Outcome` |
| `Catalog` | The ordered title → record map and the storage errors |
| `Cells` | Python's `strip`, ASCII `lower`, `int(...)` on text, and the text of a CSV cell |
| `StorageJson`, `StorageCsv`, `MovieStorage` | The three stores, each as a class over its file |
| `IStorage` | The interface over the two backends |
| `Views` | Stats, median, extremes, the stable sorts, filter answers and selection, search suggestions |
| `MenuLoop` | The shape of a menu loop that runs one handler per turn until a report stops it |
| `MovieApp` | The application class: its handlers, its dispatch and its `run` loop, each proved against a specification function |
| `MovieManager` | The list-based `MovieCollection` and its command line |

## Model

| member | source | states |
|---|---|---|
| Catalog.Get | movie_app.py:99-100 | A lookup finds a title exactly when it is a key, and then gives that key's record |
| Catalog.IndexOf | storage_json.py:39 | `title not in movies` holds exactly when no entry has that title; a found index holds the title and no earlier entry does |
| Catalog.Put | storage_json.py:33 | `movies[title] = record` makes the title map to the record and changes no other title; a new title is appended at the end, an existing one is overwritten in place |
| Catalog.Remove | storage_json.py:41 | `del movies[title]` leaves the title unmapped and every other title as it was; a present title shortens the collection by one, by cutting out exactly its entry |
| Catalog.SetRating | storage_json.py:49 | Only the named record's rating changes; the titles, their order and every other record stay as they were; an absent title changes nothing |
| Catalog.Distinct | istorage.py:12-20 | A title → record mapping holds each title at most once |
| Cells.Strip | movie_app.py:127 | `strip()` gives text that starts and ends with a non-space, and leaves text that already does unchanged |
| Cells.StripSpec | movie_app.py:127 | Stripping a class of characters removes exactly the leading and trailing characters of that class and keeps the text between them |
| Cells.ParseInt | storage_csv.py:27-29 | `int(...)` converts only text that holds a digit, and fails on text that starts with one of the separators U+001C to U+001F, which it does not skip |
| Cells.IntRoundTrip | storage_csv.py:27 | `int` reads back every integer written in decimal |
| Cells.SeparatorNotSkipped | storage_csv.py:27-29 | A year cell made of U+001C and digits does not convert, although `strip()` would remove that separator |
| Cells.YearCellRoundTrip | storage_csv.py:27-29 | A year written to a CSV cell reads back unchanged, and an absent year is written as an empty cell that reads back as absent |
| Cells.SoundCodecExists | storage_csv.py:31-33 | Some float conversion meets the conditions the model places on `float` and `str` |
| Cells.RatingCellRoundTrip | storage_csv.py:31-33 | A rating written to a cell reads back absent exactly when it was absent, unchanged when it is a float, and unchanged by a second write and read |
| StorageJson.StorageJson.constructor | storage_json.py:8-12 | The store remembers its file path; the file's state is an input |
| StorageJson.StorageJson.Load | storage_json.py:14-19 | A missing file loads as the empty collection, and an existing file as what it holds |
| StorageJson.StorageJson.Save | storage_json.py:21-24 | Saving replaces the file's contents with the collection |
| StorageJson.StorageJson.ListMovies | storage_json.py:26-28 | Listing returns the whole stored collection, or the empty one when there is no file |
| StorageJson.StorageJson.AddMovie | storage_json.py:30-34 | The file afterwards holds the old collection with the title inserted or overwritten |
| StorageJson.StorageJson.DeleteMovie | storage_json.py:36-42 | An absent title fails with not-found and leaves the file untouched; a present one is removed and nothing else changes |
| StorageJson.StorageJson.UpdateMovie | storage_json.py:44-49 | An absent title fails with not-found and leaves the file untouched; a present one changes only its rating |
| StorageJson.OnlyEntry | tests/test_storage.py:4-13 | A collection with one title, whose record is known, is that one entry |
| StorageJson.MatrixScenario | tests/test_storage.py:4-13 | From an empty store, adding, re-rating and deleting "Matrix" lists the empty map, then Matrix at 8.7, then Matrix at 9.0, then the empty map |
| StorageCsv.RowDict | storage_csv.py:23-25 | `DictReader` gives every header name a value, and only header names |
| StorageCsv.RowDictLookup | storage_csv.py:23-25 | Each header name is given the cell of its last column, or no value when the row is too short to reach that column |
| StorageCsv.StandardRowDict | storage_csv.py:23-25 | A four-cell row under the standard header maps each column name to its cell |
| StorageCsv.DecodeRow | storage_csv.py:24-35 | A row fails on a missing column only when the header lacks it; with `title`, `year` and `rating` in the header only a missing cell can fail; a header without `poster` gives the empty poster |
| StorageCsv.LoadRows | storage_csv.py:24-35 | A failed load names the error of a non-blank row that fails; a load that succeeds keeps at most one record per row, and the title of every non-blank row is a key |
| StorageCsv.LoadFile | storage_csv.py:17-36 | Loading can fail only when the file has a data row after its header; otherwise it keeps at most one record per data row |
| StorageCsv.EncodeRow | storage_csv.py:44-50 | A written row has one cell per header column: the title, a year cell that `int` reads back as the year, the rating cell, empty for no rating, and the poster or the empty string |
| StorageCsv.DecodeStandardRow | storage_csv.py:25-35 | A standard row loads as its title, `int` of the year cell, `float` of the rating cell (each absent when it does not convert) and the poster cell |
| StorageCsv.UnparseableYearKept | storage_csv.py:26-35 | A row whose year cell is "N/A" is still loaded, with its year absent |
| StorageCsv.NotANumber | storage_csv.py:27-29 | A cell that starts with neither white space `int` skips, a sign nor a digit makes `int` fail |
| StorageCsv.LaterRowWins | storage_csv.py:35 | When a later row repeats a title, its record is the one kept, at the title's first position |
| StorageCsv.MissingFileIsEmpty | storage_csv.py:19-21 | A missing file loads as the empty collection |
| StorageCsv.DataRows | storage_csv.py:44-50 | `_save` writes exactly one row per record |
| StorageCsv.RereadAll | storage_csv.py:24-50 | A save and a load keep the titles and their order |
| StorageCsv.RereadSpec | storage_csv.py:24-50 | A save and a load keep each year, keep a rating absent or present, keep a float rating exactly and turn an absent poster into the empty string; a second save and load changes nothing more |
| StorageCsv.RereadKeeps | storage_csv.py:38-50 | A collection of float ratings and present posters reads back exactly as saved |
| StorageCsv.SaveLoadRoundTrip | storage_csv.py:38-50 | For any float conversion, loading what `_save` wrote gives back every record in the same order, as `Reread` describes it |
| StorageCsv.LoadDataRows | storage_csv.py:24-35 | For any float conversion, decoding the saved data rows one by one rebuilds the saved collection, as `Reread` describes it |
| StorageCsv.DecodeEncoded | storage_csv.py:45-50 | One record written as a row is always kept on loading, and reads back with its title and year, its rating as `float` reads its text, and its poster or the empty string |
| StorageCsv.LoadErrorPersists | storage_csv.py:24-35 | Once a row fails to load, the whole load fails with that error whatever rows follow |
| StorageCsv.StorageCsv.constructor | storage_csv.py:13-15 | The store remembers its file path; the file's rows and the rating conversion are inputs |
| StorageCsv.StorageCsv.Load | storage_csv.py:17-36 | The loop over the rows builds the collection the row decoding defines, or reports the row that does not load |
| StorageCsv.StorageCsv.Save | storage_csv.py:38-50 | The file becomes the header `title,year,rating,poster` followed by one row per record, in collection order |
| StorageCsv.StorageCsv.ListMovies | storage_csv.py:52-54 | Listing returns what the file loads as |
| StorageCsv.StorageCsv.AddMovie | storage_csv.py:56-60 | A file that loads is rewritten with the title inserted or overwritten; a file that does not load is left untouched |
| StorageCsv.StorageCsv.DeleteMovie | storage_csv.py:62-68 | An absent title fails with not-found and nothing is saved; a present one is removed and nothing else changes |
| StorageCsv.StorageCsv.UpdateMovie | storage_csv.py:70-76 | An absent title fails with not-found and nothing is saved; a present one changes only its rating |
| IStorage.Storage.Persisted | istorage.py:12-20 | What a backend lists after a save has the saved titles in order, the same years, ratings present exactly where they were and equal to them when they are floats, and a given poster unchanged; the tabular backend reads a missing poster back as the empty text |
| IStorage.ListMovies | istorage.py:11-20 | Listing returns the entire title → record mapping of either backend |
| IStorage.AddMovie | istorage.py:22-28 | Adding persists the record under its title, inserted or overwritten, with no validation of its arguments; a CSV file that does not load fails and is left as it is |
| IStorage.DeleteMovie | istorage.py:30-35 | Deleting removes the record whose key is exactly the title, and only if it is present; a CSV file that does not load fails and is left as it is |
| IStorage.UpdateMovie | istorage.py:37-42 | Updating changes only the rating of an existing record; a CSV file that does not load fails and is left as it is |
| MovieStorage.DataFile.constructor | movie_storage.py:5 | The data file is `data.json`; what it holds is an input |
| MovieStorage.DataFile.GetMovies | movie_storage.py:7-15 | `get_movies` returns `{}` when the file does not exist, else what it holds |
| MovieStorage.DataFile.SaveMovies | movie_storage.py:17-22 | Saving overwrites the file with the collection |
| MovieStorage.DataFile.AddMovie | movie_storage.py:24-36 | An existing title fails with already-exists and nothing is saved; a new title is stored with its year and rating and no poster, and no other title changes |
| MovieStorage.DataFile.DeleteMovie | movie_storage.py:38-47 | An absent title fails with not-found; otherwise only that title is removed |
| MovieStorage.DataFile.UpdateMovie | movie_storage.py:49-58 | An absent title fails with not-found; otherwise only that record's rating changes |
| Views.InsertAscSorted | movie_app.py:77 | Inserting into an ascending list keeps it ascending |
| Views.InsertAscPermutes | movie_app.py:77 | Inserting adds exactly one element |
| Views.SortAsc | movie_app.py:77 | `sorted(ratings)` has as many ratings as the list |
| Views.SortAscSorted | movie_app.py:77 | `sorted(ratings)` is ascending |
| Views.SortAscPermutes | movie_app.py:77 | `sorted(ratings)` is a permutation of the ratings |
| Views.SortAscKeepsSorted | movie_app.py:77 | Sorting an ascending list leaves it as it is |
| Views.MedianSplits | movie_app.py:77 | The median is one of the ratings; at least `n//2 + 1` ratings are at most it and at least `n - n//2` are at least it |
| Views.MedianOfSorted | movie_app.py:77 | The median of sorted ratings is the element at index `n//2`, which for an even count is the upper middle value |
| Views.BestIndex | movie_app.py:78 | `max` picks a highest rating, and the first entry that has it |
| Views.WorstIndex | movie_app.py:79 | `min` picks a lowest rating, and the first entry that has it |
| Views.MovieStats | movie_app.py:72-74 | Nothing is computed exactly when the collection is empty |
| Views.MovieStatsSpec | movie_app.py:75-79 | A non-empty collection's stats are the median of its ratings and the first best and first worst entries |
| Views.InsertByPermutes | movie_app.py:117 | One insertion step of the sort adds exactly the inserted entry |
| Views.InsertBySorted | movie_app.py:117 | One insertion step keeps the list in key order |
| Views.InsertByWithKey | movie_app.py:117 | One insertion step keeps the relative order of the entries that share a key |
| Views.SortBy | movie_app.py:117 | The sort has as many entries as the collection, each with the key it sorts by |
| Views.SortByPermutes | movie_app.py:117 | The sort is a permutation of the entries |
| Views.SortBySorted | movie_app.py:117 | The sort orders the entries by key, ascending or, with `reverse`, descending |
| Views.SortByStable | movie_app.py:117 | Entries with equal keys keep their original relative order, also with `reverse` |
| Views.SortByRatingSpec | movie_app.py:117 | Sort by rating is a permutation in non-increasing rating order that is stable on ties |
| Views.SortByYearSpec | movie_app.py:131-132 | Sort by year is a permutation, non-increasing for 'y' and non-decreasing for 'n', and stable on ties |
| Views.YesNoLowered | movie_app.py:127-131 | The year-order prompt accepts exactly 'y' or 'n' after strip and lower, and 'y' asks for the latest first |
| Views.RatingAnswer | movie_app.py:144-155 | An accepted minimum rating lies in [0.0, 10.0] |
| Views.RatingAnswerSpec | movie_app.py:144-155 | A blank answer means no minimum; an answer is accepted as a bound exactly when its stripped text converts to a number in [0.0, 10.0] |
| Views.YearAnswer | movie_app.py:157-164 | An accepted year lies in 0..9999 |
| Views.YearAnswerSpec | movie_app.py:157-164 | A blank answer means no bound; an answer is accepted as a year exactly when its stripped text is four digits |
| Views.DigitsBelow | movie_app.py:161-162 | A numeral of `n` digits is below 10^n |
| Views.FourDigits | movie_app.py:161-162 | Four digits make a year of at most 9999 |
| Views.SelectedMembers | movie_app.py:175-184 | A listing is in the filter result exactly when its entry meets every present bound |
| Views.SelectedAppend | movie_app.py:175-184 | The filter selects piece by piece, so the result is the in-order subsequence of the entries that meet the criteria |
| Views.BlankCriteriaSelectAll | movie_app.py:175-184 | With every criterion blank, the filter lists every entry in order |
| Views.Qualifying | movie_app.py:104 | Filtering the matches by score never yields more titles than there were matches |
| Views.QualifyingMembers | movie_app.py:104 | A title is suggested exactly when a match for it scores at least 50 |
| Views.QualifyingAppend | movie_app.py:104 | The score filter keeps the ranked order |
| Views.Suggestions | movie_app.py:103-104 | There are at most 5 suggestions |
| Views.SuggestionsMembers | movie_app.py:103-104 | The suggestions are the titles of the first five ranked matches that score at least 50 |
| Views.SuggestionsPrefix | movie_app.py:103-104 | The suggestions are a prefix of the full qualifying list, in ranked order |
| Views.Search | movie_app.py:99-111 | Search reports an exact hit exactly when the term is a key |
| Views.SearchSpec | movie_app.py:99-111 | An exact hit shows the term's record; otherwise it shows the suggestions with their records, or reports that nothing is similar exactly when there are none |
| Views.RandomPick | movie_app.py:88-92 | An empty collection picks nothing; otherwise the pick is one of its entries |
| Views.RandomPickReachesAll | movie_app.py:88-92 | Every entry can be picked |
| MovieApp.FirstAccepted | movie_app.py:126-130 | The question settles, if at all, on a line that comes after the lines already read |
| MovieApp.FirstAcceptedSpec | movie_app.py:126-130 | A re-asked question settles on the first accepted line, and every earlier line was rejected; when the input runs out, none was accepted |
| MovieApp.FilterCriteria | movie_app.py:143-173 | The settled criteria have a minimum rating in [0.0, 10.0] and year bounds of at most four digits |
| MovieApp.Respond | movie_app.py:214-245 | Over a collection that loads, a choice outside 0–11 does nothing; the loop stops only on choice 0 or when input runs out inside the year-order or filter questions |
| MovieApp.Refused | movie_app.py:41-66 | When the file does not load: choice 0 quits; the add handler prints the error and the loop goes on; delete and update report a missing column as not found; every other handler, and delete or update on a missing cell, ends the run with the error |
| MovieApp.RespondRunsChosen | movie_app.py:219-244 | Each choice from 0 to 11 runs exactly its own handler |
| MovieApp.Show | movie_app.py:69-121 | Choices 5 to 9 show stats, a random pick, a search result, the rating order and the histogram's ratings, respectively |
| MovieApp.YearOrderReport | movie_app.py:123-137 | Choice 10 shows the year order, or that input ran out at its question |
| MovieApp.FilterReport | movie_app.py:139-192 | Choice 11 shows the filtered listings, or that input ran out at its questions |
| MovieApp.Ask | movie_app.py:126-130 | The `while True` prompt loop stops on the first accepted answer |
| MovieApp.SortMoviesByYear | movie_app.py:123-137 | The handler's loop and sort show the year order its specification defines |
| MovieApp.AskCriteria | movie_app.py:143-173 | The three prompt loops settle on the criteria their specification defines |
| MovieApp.FilterEntries | movie_app.py:175-184 | The `for` loop that appends the matching entries builds exactly the selected listings |
| MovieApp.FilterMovies | movie_app.py:139-192 | The filter handler shows what its specification defines |
| MovieApp.PutComplete | movie_app.py:35-46 | Adding a movie with a year and a rating keeps every record complete |
| MovieApp.RemoveComplete | movie_app.py:48-56 | Deleting keeps every record complete |
| MovieApp.SetRatingComplete | movie_app.py:58-67 | Updating with a rating keeps every record complete |
| MovieApp.Effect | movie_app.py:35-67 | The collection after a turn has a year and a rating on every record |
| MovieApp.After | movie_app.py:35-67 | A file that does not load stays as it was; a collection stays a collection with a year and a rating on every record |
| MovieApp.SessionUsable | movie_app.py:214-245 | A whole session keeps every record complete, or the file that did not load |
| MovieApp.UnloadableFileKept | movie_app.py:41-67 | A session never writes a file that does not load |
| MovieApp.SessionStep | movie_app.py:216-245 | One pass of the loop either stops it, leaving the state as it was, or goes on from the new state with one more report |
| MovieApp.OnlyWritesChange | movie_app.py:223-244 | Only choices 2, 3 and 4 change the stored collection |
| MovieApp.StopLeavesCollection | movie_app.py:220-222 | A turn that stops the loop leaves the state unchanged |
| MovieApp.QuitEndsSession | movie_app.py:220-222 | Choice 0 ends the session at once, with "Bye" and the state unchanged, whether or not the file loads |
| MovieApp.KeyErrorReported | movie_app.py:54-55 | Deleting or updating an absent title is reported as not found, changes nothing and does not stop the loop |
| MovieApp.MovieApp.constructor | movie_app.py:22-25 | The application holds its storage backend |
| MovieApp.MovieApp.ListAll | movie_app.py:29 | Listing through the storage returns the collection, or the error of a file that does not load, and changes nothing |
| MovieApp.MovieApp.CommandListMovies | movie_app.py:27-33 | The list handler shows the whole collection; a file that does not load ends the run with its error |
| MovieApp.MovieApp.CommandAddMovie | movie_app.py:35-46 | The add handler stores the prompted record under its title and reports it; on a file that does not load it shows the error and changes nothing |
| MovieApp.MovieApp.CommandDeleteMovie | movie_app.py:48-56 | The delete handler removes a present title, or reports not-found and changes nothing; on a file that does not load it reports a missing column as not found and ends the run on a missing cell, changing nothing |
| MovieApp.MovieApp.CommandUpdateMovie | movie_app.py:58-67 | The update handler re-rates a present title, or reports not-found and changes nothing; on a file that does not load it reports a missing column as not found and ends the run on a missing cell, changing nothing |
| MovieApp.MovieApp.CommandShow | movie_app.py:69-121 | The read-only handlers show what their specification defines, or end the run when the file does not load |
| MovieApp.MovieApp.CommandSortByYear | movie_app.py:123-137 | The year-sort handler shows what its specification defines, or ends the run when the file does not load |
| MovieApp.MovieApp.CommandFilterMovies | movie_app.py:139-192 | The filter handler shows what its specification defines, or ends the run when the file does not load |
| MovieApp.MovieApp.HandleQuery | movie_app.py:219-244 | The read-only choices show what the menu specification defines |
| MovieApp.MovieApp.Handle | movie_app.py:219-244 | The dispatch shows what the menu specification defines and leaves the state it defines |
| MovieApp.MovieApp.Step | movie_app.py:216-245 | One pass of the `while True` loop advances the session as `Loop` defines |
| MovieApp.MovieApp.Run | movie_app.py:214-245 | The loop's reports and final state are those of the session its specification defines, whether or not the file loads |
| MenuLoop.Loop | movie_app.py:216-245 | Each turn shows at most one report |
| MenuLoop.LoopExtends | movie_app.py:216-245 | The loop keeps the reports already shown |
| MenuLoop.LoopStopsLast | movie_app.py:216-245 | No report but the last stops the loop |
| MenuLoop.LoopEndsOnStop | movie_app.py:216-245 | A loop that does not use up its input ends on a stopping report |
| MenuLoop.LoopKeeps | movie_app.py:216-245 | A property that every handler keeps holds at the end of the loop |
| MovieManager.Field | movie_manager.py:48-51 | `data.get(key, default)` gives the key's value when present, else the default |
| MovieManager.AddOutcome | movie_manager.py:23-59 | The add succeeds exactly when OMDb answered and knows the title, and then appends the film built from the answer; on either error nothing is added |
| MovieManager.Without | movie_manager.py:64 | Deleting never lengthens the list |
| MovieManager.WithoutMembers | movie_manager.py:64 | The kept films are exactly those whose title differs from the argument case-insensitively |
| MovieManager.WithoutAppend | movie_manager.py:64 | The deletion filter works piece by piece, so the kept films stay in their original order |
| MovieManager.WithoutSame | movie_manager.py:63-69 | The length is unchanged exactly when no title matches, and then the list is unchanged |
| MovieManager.RatingTexts | movie_manager.py:79 | The stats consider at most one rating per film |
| MovieManager.RatingTextsSpec | movie_manager.py:79 | The ratings considered are exactly those that are not "N/A", and there are none exactly when every rating is "N/A" |
| MovieManager.Floats | movie_manager.py:79 | Every considered rating is converted, in order, or the conversion fails on the first rating that does not convert |
| MovieManager.StatsOf | movie_manager.py:78-84 | "No valid ratings" means no rating was considered; otherwise one value is averaged per considered rating |
| MovieManager.StatsNoRatings | movie_manager.py:80-82 | The stats print the no-ratings message, without averaging, exactly when every rating is "N/A" |
| MovieManager.SplitOnce | movie_manager.py:108 | The text before the first space is no longer than the line |
| MovieManager.SplitOnceSpec | movie_manager.py:108 | `split(' ', 1)` gives a head with no space; joining head and tail with a space gives back the line, and without a tail the head is the whole line |
| MovieManager.ParseLine | movie_manager.py:108-110 | The action is the lower-cased text before the first space of the stripped line; the argument is the rest of the line, or '' |
| MovieManager.Classify | movie_manager.py:112-131 | `add` and `delete` act only with a non-empty argument, and that argument is the title; `quit` and `exit` quit; anything else unrecognised is an unknown command |
| MovieManager.Respond | movie_manager.py:111-131 | Only `add` and `delete` can change the list, and a command that ends the program leaves it unchanged |
| MovieManager.Turned | movie_manager.py:106-131 | A pass of the loop that ends it leaves the list as it was, and only `add` and `delete` change the list |
| MovieManager.QuitEndsLoop | movie_manager.py:127-129 | `quit` or `exit` ends the loop at once with "Goodbye!" and the list unchanged |
| MovieManager.DeleteReport | movie_manager.py:63-69 | A delete reports "not found" exactly when no title matches, and then the list is unchanged |
| MovieManager.MovieCollection.constructor | movie_manager.py:20-21 | A new collection is empty |
| MovieManager.MovieCollection.AddMovie | movie_manager.py:23-60 | Adding with an OMDb answer has the outcome and leaves the list that `AddOutcome` defines |
| MovieManager.MovieCollection.DeleteMovie | movie_manager.py:62-69 | The list becomes the films whose title differs from the argument case-insensitively, in order; the report says a film went exactly when one matched |
| MovieManager.MovieCollection.ListMovies | movie_manager.py:71-76 | An empty collection gives the message; otherwise every film is listed |
| MovieManager.MovieCollection.Stats | movie_manager.py:78-84 | There are no valid ratings exactly when every rating is "N/A"; otherwise the average is over the float of each other rating, in order, or the first rating `float` rejects raises ValueError |
| MovieManager.MovieCollection.Execute | movie_manager.py:111-131 | One command has the output, and leaves the list, that the command-line specification defines |
| MovieManager.CommandLine | movie_manager.py:106-134 | The loop's outputs and final list are those `Loop` defines over the input lines |

## Left out

- File I/O and text codecs:
  - Opening files and testing whether they exist are not modelled. Each file is a snapshot field, with `None` for "does not exist".
  - JSON text and its decoding are not modelled.
  - CSV quoting is not modelled; a CSV file is its rows of cells.
- Floating point:
  - `float(...)` and `str(...)` of a float are parameters: a partial function from text to `real` and a function from `real` to text. For the CSV backend they must meet three conditions (`Cells.Sound`):
    - the empty string does not convert;
    - every printed rating converts to some value;
    - a value obtained by conversion (a float) prints as text that converts back to it.
  - `Cells.SoundCodecExists` shows that the conditions can be met. A rating that is not a float reads back as whatever `float` makes of its printed text (`StorageCsv.Reread`).
  - Averages and their `.1f`/`.2f` formatting are not modelled.
- Output and colour: printing, colorama and the "Press enter" pauses are not modelled. Each handler returns a report of what it shows instead.
- Input: the prompt helpers live in a `movies` module that is not part of this model. Their results arrive as `Prompts`. Only the questions that are asked again inside `movie_app.py` are modelled, as a sequence of input lines.
- The fuzzy ranking `rapidfuzz.process.extract` is a parameter. It must only return titles it was given.
- `random.choice` is modelled as an index that the caller supplies.
- The histogram: only the ratings it would plot are modelled, not the matplotlib drawing or the saving.
- `_generate_website` is an empty stub and is not modelled.
- `main.py` only wires a backend into the application and is not modelled.
- `tests/test_movie_app.py` only starts the interactive loop and is not modelled.
- OMDb: the HTTP request is not modelled. Its answer is an input, either "request failed" or the reply's fields. A reply that is not valid JSON, which Python reports as a `ValueError`, is not modelled.
- `lower()` is ASCII only.
- `strip()` knows only the white-space characters listed in `Cells.IsSpace`. `int(...)` skips the same characters except U+001C to U+001F (`Cells.IsIntSpace`).
- `int(...)` accepts only ASCII digits. Python's `int` also accepts other decimal digits, such as full-width ones.
- Views.YearAnswer: `isdigit()` at `movie_app.py:161` is modelled as ASCII digits only. Python also accepts other decimal digits, such as '１９９９', which `int` turns into 1999. It also accepts digit characters such as '¹²³⁴', on which `int` raises an uncaught ValueError that ends the program. The model rejects both and asks again.
- Views.YearAnswerSpec: states acceptance for ASCII digits only, for the same reason as `Views.YearAnswer`.
- KeyboardInterrupt and end of input at the `movie_manager.py` prompt are not modelled. A finite sequence of lines that runs out simply ends the loop.
- A CSV row with no `title` cell: Python would key that record under `None`. The model reports the row as not loading.
- Absent years or ratings: these can come from the CSV backend, and Python would raise `TypeError` when stats, the sorts or the filter compare them. When the file loads, the application is modelled only over collections in which every record has a year and a rating (`MovieApp.Complete`, `MovieApp.Usable`), and no handling policy is invented. A CSV file that does not load is modelled (`MovieApp.Refused`).
- MovieApp.Turned: on a collection with an absent year or rating, the step function shows nothing and changes nothing. This case is never reached from `MovieApp.MovieApp.Run`. On such a collection Python runs most turns normally:
  - quitting (`movie_app.py:220-222`);
  - the listing, which prints `None` for the missing value (`movie_app.py:27-33`);
  - add, delete and update (`movie_app.py:35-67`);
  - the random pick (`movie_app.py:86-93`);
  - the search (`movie_app.py:95-112`).

  Python raises `TypeError` only in these places:
  - the stats, at `sum`, when a rating is absent (`movie_app.py:76`);
  - either sort, when there are two or more records and a sort key is absent (`movie_app.py:117`, `movie_app.py:132`);
  - the filter, once a criterion is set whose field is absent (`movie_app.py:178-182`);
  - the histogram, when a rating is absent (`movie_app.py:200`).
- A year given as text is not modelled. The storage interface declares the year as text (`istorage.py:23`), and its documentation shows a text year (`istorage.py:16`). The model takes and stores an integer year everywhere: `IStorage.AddMovie`, `MovieApp.Prompts.year` and `Catalog.Movie.year`. This agrees with the filter, which compares the year with an integer (`movie_app.py:180-182`).
- MovieManager.StatsOf: the selection in `movie_manager.py:79` tests `m.rating != 'N/A'` twice. The duplicate test changes nothing, and the model tests it once.

=== FILE: Catalog.dfy ===
/** The record model: one movie's fields and the whole collection, a
    title-keyed dictionary that (like a Python dict) remembers the order in
    which its keys were first inserted. */
module Catalog {
  import opened Wrappers

  /** One movie's record. A field is `None` when it is absent: a year or a
      rating that did not parse in the tabular backend, or a poster that was
      never given. Ratings are compared only, so they are exact reals. */
  datatype Movie = Movie(year: Option<int>, rating: Option<real>, poster: Option<string>)

  /** One key/value pair of the collection, in iteration order. */
  datatype Entry = Entry(title: string, movie: Movie)

  /** The key at position `i`. Uniqueness is stated over it, so that a
      proof relies on it only at the positions it names. */
  function KeyAt(ts: seq<string>, i: nat): string
    requires i < |ts|
  {
    ts[i]
  }

  predicate NoDuplicates(ts: seq<string>) {
    forall i, j :: 0 <= i < j < |ts| ==> KeyAt(ts, i) != KeyAt(ts, j)
  }

  /** No title occurs twice. */
  predicate DistinctTitles(s: seq<Entry>) {
    NoDuplicates(Titles(s))
  }

  /** The title -> record mapping, in insertion order; keys are unique. */
  type Catalog = s: seq<Entry> | DistinctTitles(s) witness []

  /** Why a backing file could not be loaded: a column the rows are read by
      is missing from the header (Python's KeyError), or a row is too short
      to hold a cell that is then converted (Python's TypeError). */
  datatype LoadError = MissingColumn(column: string) | MissingCell(column: string)

  /** The conditions the stores raise. */
  datatype Failure =
    | NotFound(title: string)         // KeyError: the title is not a key
    | AlreadyExists(title: string)    // ValueError: the title is already a key
    | Malformed(cause: LoadError)     // the backing file does not load

  /** The keys, in iteration order. */
  function Titles(s: seq<Entry>): (ts: seq<string>)
    ensures |ts| == |s|
    ensures forall i {:trigger ts[i]} :: 0 <= i < |s| ==> ts[i] == s[i].title
  {
    seq(|s|, i requires 0 <= i < |s| => s[i].title)
  }

  /** The keys, position by position. */
  lemma TitlesAt(s: seq<Entry>)
    ensures forall i :: 0 <= i < |s| ==> Titles(s)[i] == s[i].title
  {
  }

  /** Two positions of a collection hold two different keys. */
  lemma Distinct(c: Catalog, i: nat, j: nat)
    requires i < |c| && j < |c| && i != j
    ensures c[i].title != c[j].title
  {
    TitlesAt(c);
    if i < j {
      assert KeyAt(Titles(c), i) != KeyAt(Titles(c), j);
    } else {
      assert KeyAt(Titles(c), j) != KeyAt(Titles(c), i);
    }
  }

  /** The key at position `k` occurs nowhere else. */
  lemma KeyUnique(c: Catalog, k: nat)
    requires k < |c|
    ensures forall i :: 0 <= i < |c| && i != k ==> c[i].title != c[k].title
  {
    forall i | 0 <= i < |c| && i != k ensures c[i].title != c[k].title {
      Distinct(c, i, k);
    }
  }

  /** A new key appended at the end keeps the keys unique. */
  lemma AppendDistinct(c: Catalog, e: Entry)
    requires e.title !in Titles(c)
    ensures DistinctTitles(c + [e])
  {
    var r := c + [e];
    TitlesAt(c);
    TitlesAt(r);
    forall j, k | 0 <= j < k < |r| ensures KeyAt(Titles(r), j) != KeyAt(Titles(r), k) {
      if k < |c| {
        Distinct(c, j, k);
      }
    }
  }

  /** The position of key `t`, if it is a key. */
  function IndexOf(s: seq<Entry>, t: string): (r: Option<nat>)
    ensures r.Some? ==> r.value < |s| && s[r.value].title == t
    ensures r.Some? ==> forall j :: 0 <= j < r.value ==> s[j].title != t
    ensures r.None? <==> t !in Titles(s)
  {
    TitlesAt(s);
    if s == [] then None
    else if s[0].title == t then Some(0)
    else
      assert Titles(s) == [s[0].title] + Titles(s[1..]);
      match IndexOf(s[1..], t)
      case None => None
      case Some(i) => Some(i + 1)
  }

  /** `movies.get(t)`: the record stored under `t`, if any. */
  function Get(c: Catalog, t: string): (r: Option<Movie>)
    ensures r.Some? <==> t in Titles(c)
    ensures forall i :: 0 <= i < |c| && c[i].title == t ==> r == Some(c[i].movie)
  {
    TitlesAt(c);
    match IndexOf(c, t)
    case None => None
    case Some(i) =>
      KeyUnique(c, i);
      Some(c[i].movie)
  }

  /** `movies[t] = m`: overwrites the record of an existing key in its
      place, or appends a new key at the end. */
  function Put(c: Catalog, t: string, m: Movie): (r: Catalog)
    ensures Get(r, t) == Some(m)
    ensures forall u :: u != t ==> Get(r, u) == Get(c, u)
    ensures Titles(r) == if t in Titles(c) then Titles(c) else Titles(c) + [t]
    ensures t !in Titles(c) ==> r == c + [Entry(t, m)]
    ensures t in Titles(c) ==> exists i :: 0 <= i < |c| && c[i].title == t && r == c[i := Entry(t, m)]
  {
    match IndexOf(c, t)
    case Some(i) =>
      var r := c[i := Entry(t, m)];
      TitlesAt(c);
      TitlesAt(r);
      assert Titles(r) == Titles(c);
      r
    case None =>
      AppendDistinct(c, Entry(t, m));
      var r := c + [Entry(t, m)];
      TitlesAt(c);
      TitlesAt(r);
      assert Titles(r) == Titles(c) + [t];
      r
  }

  /** `del movies[t]`: drops the entry of key `t` and keeps the others in
      their order; a collection without `t` is returned as it is. */
  function Remove(c: Catalog, t: string): (r: Catalog)
    ensures Get(r, t) == None
    ensures forall u :: u != t ==> Get(r, u) == Get(c, u)
    ensures t in Titles(c) ==> |r| == |c| - 1
    ensures t in Titles(c) ==> exists i :: 0 <= i < |c| && c[i].title == t && r == c[..i] + c[i + 1..]
    ensures t !in Titles(c) ==> r == c
  {
    match IndexOf(c, t)
    case None => c
    case Some(i) =>
      DropKeepsDistinct(c, i);
      var r: Catalog := c[..i] + c[i + 1..];
      RemoveAt(c, i, r);
      r
  }

  /** Dropping one entry keeps the keys unique. */
  lemma DropKeepsDistinct(c: Catalog, i: nat)
    requires i < |c|
    ensures DistinctTitles(c[..i] + c[i + 1..])
  {
    var r := c[..i] + c[i + 1..];
    TitlesAt(c);
    TitlesAt(r);
    forall j, k | 0 <= j < k < |r| ensures KeyAt(Titles(r), j) != KeyAt(Titles(r), k) {
      assert r[j] == c[if j < i then j else j + 1];
      assert r[k] == c[if k < i then k else k + 1];
      Distinct(c, if j < i then j else j + 1, if k < i then k else k + 1);
    }
  }

  /** The first `n` entries have unique keys too. */
  lemma PrefixDistinct(c: Catalog, n: nat)
    requires n <= |c|
    ensures DistinctTitles(c[..n])
  {
    TitlesAt(c);
    TitlesAt(c[..n]);
    forall j, k | 0 <= j < k < n ensures KeyAt(Titles(c[..n]), j) != KeyAt(Titles(c[..n]), k) {
      Distinct(c, j, k);
    }
  }

  /** The last key does not occur before it. */
  lemma LastKeyNew(c: Catalog)
    requires c != []
    ensures c[|c| - 1].title !in Titles(c[..|c| - 1])
  {
    var n := |c| - 1;
    TitlesAt(c);
    TitlesAt(c[..n]);
    forall k | 0 <= k < n ensures Titles(c[..n])[k] != c[n].title {
      Distinct(c, k, n);
    }
  }

  /** Dropping the entry at position `i` keeps every other key's record. */
  lemma RemoveAt(c: Catalog, i: nat, r: Catalog)
    requires i < |c| && r == c[..i] + c[i + 1..]
    ensures Get(r, c[i].title) == None
    ensures forall u :: u != c[i].title ==> Get(r, u) == Get(c, u)
  {
    TitlesAt(c);
    TitlesAt(r);
    forall u | u != c[i].title ensures Get(r, u) == Get(c, u) {
      if u in Titles(c) {
        var k :| 0 <= k < |c| && c[k].title == u;
        var k' := if k < i then k else k - 1;
        assert r[k'] == c[k];
      } else {
        assert u !in Titles(r);
      }
    }
    assert c[i].title !in Titles(r) by {
      forall k | 0 <= k < |r| ensures r[k].title != c[i].title {
        assert r[k] == c[if k < i then k else k + 1];
        Distinct(c, if k < i then k else k + 1, i);
      }
    }
  }

  /** `movies[t]["rating"] = rating`: replaces only the rating of key `t`;
      a collection without `t` is returned as it is. */
  function SetRating(c: Catalog, t: string, rating: Option<real>): (r: Catalog)
    ensures Titles(r) == Titles(c)
    ensures forall u :: u != t ==> Get(r, u) == Get(c, u)
    ensures t in Titles(c) ==> Get(r, t) == Some(Get(c, t).value.(rating := rating))
    ensures t !in Titles(c) ==> r == c
  {
    match Get(c, t)
    case None => c
    case Some(m) => Put(c, t, m.(rating := rating))
  }
}

=== FILE: Cells.dfy ===
/** Text cells of the tabular backend: Python's `str.strip`, the `int(...)`
    conversion a year cell goes through, `str(...)` of an integer, and the
    float conversion of a rating cell, which the model takes as a parameter. */
module Cells {
  import opened Wrappers

  /** Python's `str.isspace` for one character. */
  predicate IsSpace(ch: char) {
    var n := ch as int;
    (9 <= n <= 13) || (28 <= n <= 32) || n == 0x85 || n == 0xA0 || n == 0x1680
    || (0x2000 <= n <= 0x200A) || n == 0x2028 || n == 0x2029 || n == 0x202F
    || n == 0x205F || n == 0x3000
  }

  /** The white space `int(...)` skips around its digits: that of
      `str.isspace` except the four separators U+001C to U+001F, on which
      `int` raises ValueError. */
  predicate IsIntSpace(ch: char) {
    IsSpace(ch) && !(28 <= ch as int <= 31)
  }

  /** `s` without its leading characters of the class `ws`. */
  function StripLeft(s: string, ws: char -> bool): (r: string)
    ensures |r| <= |s|
  {
    if s != [] && ws(s[0]) then StripLeft(s[1..], ws) else s
  }

  /** `s` without its trailing characters of the class `ws`. */
  function StripRight(s: string, ws: char -> bool): (r: string)
    ensures |r| <= |s|
  {
    if s != [] && ws(s[|s| - 1]) then StripRight(s[..|s| - 1], ws) else s
  }

  lemma {:induction false} StripLeftSpec(s: string, ws: char -> bool)
    ensures var r := StripLeft(s, ws);
      && r == s[|s| - |r|..]
      && (forall k :: 0 <= k < |s| - |r| ==> ws(s[k]))
      && (r != [] ==> !ws(r[0]))
  {
    if s != [] && ws(s[0]) {
      StripLeftSpec(s[1..], ws);
    }
  }

  lemma {:induction false} StripRightSpec(s: string, ws: char -> bool)
    ensures var r := StripRight(s, ws);
      && r == s[..|r|]
      && (forall k :: |r| <= k < |s| ==> ws(s[k]))
      && (r != [] ==> !ws(r[|r| - 1]))
  {
    if s != [] && ws(s[|s| - 1]) {
      StripRightSpec(s[..|s| - 1], ws);
    }
  }

  /** `s` without its leading and trailing characters of the class `ws`. */
  function StripBy(s: string, ws: char -> bool): (r: string)
    ensures |r| <= |s|
  {
    StripRight(StripLeft(s, ws), ws)
  }

  /** `s.strip()`: `s` without its leading and trailing white space. What
      it keeps starts and ends with a character that is not white space;
      `StripSpec` says that it is the middle of `s`. */
  function Strip(s: string): (r: string)
    ensures |r| <= |s|
    ensures r != [] ==> !IsSpace(r[0]) && !IsSpace(r[|r| - 1])
    ensures s != [] && !IsSpace(s[0]) && !IsSpace(s[|s| - 1]) ==> r == s
  {
    StripSpec(s, IsSpace);
    StripBy(s, IsSpace)
  }

  /** What `StripBy` removes is characters of the class at either end, and
      what it keeps is the middle of `s`, starting and ending with a
      character outside the class. */
  lemma StripSpec(s: string, ws: char -> bool)
    ensures var r := StripBy(s, ws); var i := |s| - |StripLeft(s, ws)|;
              && i + |r| <= |s| && r == s[i..i + |r|]
              && (forall k :: 0 <= k < i ==> ws(s[k]))
              && (forall k :: i + |r| <= k < |s| ==> ws(s[k]))
              && (r != [] ==> !ws(r[0]) && !ws(r[|r| - 1]))
  {
    var l := StripLeft(s, ws);
    var r := StripRight(l, ws);
    StripLeftSpec(s, ws);
    StripRightSpec(l, ws);
    assert r == s[|s| - |l|..|s| - |l| + |r|];
  }

  lemma {:induction false} StripKeeps(s: string, ws: char -> bool)
    requires s != [] && !ws(s[0]) && !ws(s[|s| - 1])
    ensures StripBy(s, ws) == s
  {
    assert StripLeft(s, ws) == s;
    assert StripRight(s, ws) == s;
  }

  predicate IsDigit(ch: char) { '0' <= ch <= '9' }

  /** `ch.lower()` on an ASCII letter; other characters are kept. */
  function LowerChar(ch: char): char {
    if 'A' <= ch <= 'Z' then (ch as int + 32) as char else ch
  }

  /** `s.lower()` on ASCII letters; other characters are kept. */
  function Lower(s: string): (r: string)
    ensures |r| == |s|
    ensures forall k :: 0 <= k < |s| ==> r[k] == LowerChar(s[k])
  {
    seq(|s|, k requires 0 <= k < |s| => LowerChar(s[k]))
  }

  function DigitValue(ch: char): nat
    requires IsDigit(ch)
  {
    ch as int - '0' as int
  }

  function DigitChar(d: nat): (ch: char)
    requires d < 10
    ensures IsDigit(ch) && DigitValue(ch) == d
  {
    ('0' as int + d) as char
  }

  /** The digits `int(...)` accepts after an optional sign: ASCII digits,
      with single underscores allowed between two digits. */
  predicate IsNumeral(s: string) {
    && |s| > 0 && IsDigit(s[0]) && IsDigit(s[|s| - 1])
    && (forall k :: 0 <= k < |s| ==> IsDigit(s[k]) || s[k] == '_')
    && (forall k :: 0 <= k < |s| - 1 ==> s[k] != '_' || s[k + 1] != '_')
  }

  /** The value of a string of digits and underscores, underscores skipped. */
  function NumeralValue(s: string): nat
    requires forall k :: 0 <= k < |s| ==> IsDigit(s[k]) || s[k] == '_'
  {
    if s == [] then 0
    else if s[|s| - 1] == '_' then NumeralValue(s[..|s| - 1])
    else 10 * NumeralValue(s[..|s| - 1]) + DigitValue(s[|s| - 1])
  }

  /** `int(s)` on a string: `None` where Python raises ValueError. A
      conversion needs a digit, and a leading separator U+001C to U+001F,
      which `int` does not skip, makes it fail. */
  function ParseInt(s: string): (r: Option<int>)
    ensures r.Some? ==> exists k :: 0 <= k < |s| && IsDigit(s[k])
    ensures s != [] && 28 <= s[0] as int <= 31 ==> r.None?
  {
    var t := StripBy(s, IsIntSpace);
    StripSpec(s, IsIntSpace);
    var i := |s| - |StripLeft(s, IsIntSpace)|;
    assert t != [] ==> t[0] == s[i];
    if t != [] && (t[0] == '+' || t[0] == '-') then
      if IsNumeral(t[1..]) then
        assert s[i + 1] == t[1..][0];
        var v: int := NumeralValue(t[1..]);
        Some(if t[0] == '-' then -v else v)
      else None
    else if IsNumeral(t) then Some(NumeralValue(t))
    else None
  }

  /** `str(n)` for a non-negative integer: decimal, no leading zeros. */
  function NatToString(n: nat): (s: string)
    ensures s != [] && forall k :: 0 <= k < |s| ==> IsDigit(s[k])
  {
    if n < 10 then [DigitChar(n)] else NatToString(n / 10) + [DigitChar(n % 10)]
  }

  /** `str(i)` for an integer. */
  function IntToString(i: int): string {
    if i < 0 then "-" + NatToString(-i) else NatToString(i)
  }

  lemma {:induction false} NatToStringValue(n: nat)
    ensures IsNumeral(NatToString(n))
    ensures NumeralValue(NatToString(n)) == n
  {
    var s := NatToString(n);
    if n >= 10 {
      NatToStringValue(n / 10);
      assert s[..|s| - 1] == NatToString(n / 10);
    }
  }

  /** Decimal printing and `int(...)` parsing are inverse on every integer. */
  lemma IntRoundTrip(i: int)
    ensures ParseInt(IntToString(i)) == Some(i)
  {
    var s := IntToString(i);
    NatToStringValue(if i < 0 then -i else i);
    StripKeeps(s, IsIntSpace);
    if i < 0 {
      assert s[1..] == NatToString(-i);
    }
  }

  /** `int(...)` does not skip the separator U+001C, which `strip()` does
      skip: a year cell that starts with it does not convert. */
  lemma SeparatorNotSkipped(digits: string)
    requires IsNumeral(digits)
    ensures ParseInt([28 as char] + digits) == None
    ensures Strip([28 as char] + digits) == digits
  {
    var s := [28 as char] + digits;
    StripKeeps(s, IsIntSpace);
    assert s[1..] == digits;
    assert StripLeft(s, IsSpace) == digits;
    StripKeeps(digits, IsSpace);
  }

  /** The cell a year is written as: empty when absent (`csv` writes `None`
      as an empty cell), otherwise `str(year)`. */
  function YearCell(year: Option<int>): string {
    match year
    case None => ""
    case Some(y) => IntToString(y)
  }

  /** A year written to a cell and read back with `int(...)` (a failed
      conversion reading as absent) is the same year, absent included. */
  lemma YearCellRoundTrip(year: Option<int>)
    ensures ParseInt(YearCell(year)) == year
  {
    if year.Some? {
      IntRoundTrip(year.value);
    }
  }

  /** Python's `float(...)` on a string (`None` where it raises ValueError)
      and `str(...)` of a float, which the model does not define. */
  datatype RatingCodec = RatingCodec(parse: string -> Option<real>, show: real -> string)

  /** A rating that `float` gives back exactly: the printed text of `r`
      converts back to `r`. Python's float values are such ratings. */
  ghost predicate IsFloat(codec: RatingCodec, r: real) {
    codec.parse(codec.show(r)) == Some(r)
  }

  /** What the model relies on of the two: an empty string does not
      convert, every printed rating converts to some float, and a float
      obtained by conversion prints as text that converts back to it. A
      real that no float represents may print as the text of a float near
      it. */
  ghost predicate Sound(codec: RatingCodec) {
    && codec.parse("") == None
    && (forall r :: codec.parse(codec.show(r)).Some?)
    && (forall s :: codec.parse(s).Some? ==> IsFloat(codec, codec.parse(s).value))
  }

  /** The condition can be met: by a codec that knows the single float 1.0,
      printed as "1" and read from it, and prints every rating as "1". */
  lemma SoundCodecExists()
    ensures Sound(RatingCodec(s => if s == "1" then Some(1.0) else None, r => "1"))
  {
  }

  /** The cell a rating is written as: empty when absent. */
  function RatingCell(codec: RatingCodec, rating: Option<real>): string {
    match rating
    case None => ""
    case Some(r) => codec.show(r)
  }

  /** The cell a poster is written as: `info.get('poster', '')`, with an
      absent value written as an empty cell. */
  function PosterCell(poster: Option<string>): string {
    poster.GetOr("")
  }

  /** What a rating written to a cell reads back as. */
  function RatingReread(codec: RatingCodec, rating: Option<real>): Option<real> {
    codec.parse(RatingCell(codec, rating))
  }

  /** A rating written to a cell and read back with `float(...)` is absent
      exactly when it was, is itself when it was a float, and is a float in
      any case: writing and reading it once more changes nothing. */
  lemma RatingCellRoundTrip(codec: RatingCodec, rating: Option<real>)
    requires Sound(codec)
    ensures RatingReread(codec, rating).None? <==> rating.None?
    ensures rating.Some? && IsFloat(codec, rating.value) ==> RatingReread(codec, rating) == rating
    ensures RatingReread(codec, RatingReread(codec, rating)) == RatingReread(codec, rating)
  {
    if rating.Some? {
      var v := RatingReread(codec, rating);
      assert codec.parse(codec.show(rating.value)).Some?;
      assert IsFloat(codec, v.value);
    }
  }
}

=== FILE: IStorage.dfy ===
/** The storage interface: list, add, delete and update over a whole
    collection. Its implementations are the structured-text backend and the
    tabular backend; a `Storage` value is one of the two, and the four
    operations dispatch on it. Their contracts are stated on `Contents()`,
    what `list_movies` returns, so that callers see one interface. */
module IStorage {
  import opened Wrappers
  import opened Catalog
  import opened Cells
  import StorageJson
  import StorageCsv

  datatype Storage = Json(json: StorageJson.StorageJson) | Csv(csv: StorageCsv.StorageCsv)
  {
    /** The backend object whose file the operations rewrite. */
    function Obj(): object {
      match this
      case Json(j) => j
      case Csv(c) => c
    }

    /** The tabular backend's rating conversion is sound. */
    ghost predicate Valid() {
      Csv? ==> Sound(csv.codec)
    }

    /** What `list_movies` returns now, or why the file does not load. */
    ghost function Contents(): Result<Catalog, LoadError>
      reads Obj()
    {
      match this
      case Json(j) => Ok(j.Contents())
      case Csv(c) => c.Contents()
    }

    /** What listing returns after `movies` was saved: the same collection,
        except that the tabular backend reads an absent poster back as the
        empty string and a rating as `float` reads its printed text, which
        is the rating itself when it is a float. */
    function Persisted(movies: Catalog): (r: Catalog)
      requires Valid()
      ensures Json? ==> r == movies
      ensures Titles(r) == Titles(movies)
      ensures forall i :: 0 <= i < |r| ==>
        r[i].movie.year == movies[i].movie.year && (r[i].movie.rating.None? <==> movies[i].movie.rating.None?)
      ensures forall i :: 0 <= i < |r| && movies[i].movie.rating.Some? && (Json? || IsFloat(csv.codec, movies[i].movie.rating.value)) ==>
        r[i].movie.rating == movies[i].movie.rating
      ensures forall i :: 0 <= i < |r| ==> r[i].movie.poster.Some? || movies[i].movie.poster.None?
      ensures forall i :: 0 <= i < |r| && movies[i].movie.poster.Some? ==> r[i].movie.poster == movies[i].movie.poster
      ensures Csv? ==> forall i :: 0 <= i < |r| ==> r[i].movie.poster == Some(movies[i].movie.poster.GetOr(""))
    {
      match this
      case Json(_) => movies
      case Csv(c) =>
        StorageCsv.RereadSpec(movies, c.codec);
        StorageCsv.RereadAll(movies, c.codec)
    }
  }

  /** `list_movies`: the entire title -> record mapping. */
  method ListMovies(s: Storage) returns (r: Result<Catalog, LoadError>)
    ensures r == s.Contents()
  {
    match s
    case Json(j) =>
      var movies := j.ListMovies();
      r := Ok(movies);
    case Csv(c) =>
      r := c.ListMovies();
  }

  /** `add_movie`: persists the record under `title`, whether or not the
      title existed, without checking its arguments. */
  method AddMovie(s: Storage, title: string, year: Option<int>, rating: Option<real>, poster: Option<string>)
    returns (r: Outcome<Failure>)
    requires s.Valid()
    modifies s.Obj()
    ensures old(s.Contents()).Err? ==>
      r == Fail(Malformed(old(s.Contents()).error)) && s.Contents() == old(s.Contents())
    ensures old(s.Contents()).Ok? ==>
      r == Pass && s.Contents() == Ok(s.Persisted(Put(old(s.Contents()).value, title, Movie(year, rating, poster))))
  {
    match s
    case Json(j) =>
      j.AddMovie(title, year, rating, poster);
      r := Pass;
    case Csv(c) =>
      r := c.AddMovie(title, year, rating, poster);
      if r == Pass {
        StorageCsv.SaveLoadRoundTrip(Put(old(c.Contents()).value, title, Movie(year, rating, poster)), c.codec);
      }
  }

  /** `delete_movie`: removes the record whose key is exactly `title`, and
      only when it is present; otherwise KeyError and nothing is written. */
  method DeleteMovie(s: Storage, title: string) returns (r: Outcome<Failure>)
    requires s.Valid()
    modifies s.Obj()
    ensures old(s.Contents()).Err? ==>
      r == Fail(Malformed(old(s.Contents()).error)) && s.Contents() == old(s.Contents())
    ensures old(s.Contents()).Ok? && title !in Titles(old(s.Contents()).value) ==>
      r == Fail(NotFound(title)) && s.Contents() == old(s.Contents())
    ensures old(s.Contents()).Ok? && title in Titles(old(s.Contents()).value) ==>
      r == Pass && s.Contents() == Ok(s.Persisted(Remove(old(s.Contents()).value, title)))
  {
    match s
    case Json(j) =>
      r := j.DeleteMovie(title);
    case Csv(c) =>
      r := c.DeleteMovie(title);
      if r == Pass {
        StorageCsv.SaveLoadRoundTrip(Remove(old(c.Contents()).value, title), c.codec);
      }
  }

  /** `update_movie`: changes only the rating of an existing movie;
      otherwise KeyError and nothing is written. */
  method UpdateMovie(s: Storage, title: string, rating: Option<real>) returns (r: Outcome<Failure>)
    requires s.Valid()
    modifies s.Obj()
    ensures old(s.Contents()).Err? ==>
      r == Fail(Malformed(old(s.Contents()).error)) && s.Contents() == old(s.Contents())
    ensures old(s.Contents()).Ok? && title !in Titles(old(s.Contents()).value) ==>
      r == Fail(NotFound(title)) && s.Contents() == old(s.Contents())
    ensures old(s.Contents()).Ok? && title in Titles(old(s.Contents()).value) ==>
      r == Pass && s.Contents() == Ok(s.Persisted(SetRating(old(s.Contents()).value, title, rating)))
  {
    match s
    case Json(j) =>
      r := j.UpdateMovie(title, rating);
    case Csv(c) =>
      r := c.UpdateMovie(title, rating);
      if r == Pass {
        StorageCsv.SaveLoadRoundTrip(SetRating(old(c.Contents()).value, title, rating), c.codec);
      }
  }
}

=== FILE: MenuLoop.dfy ===
/** The shape of the application's menu loop, whatever its commands do:
    each turn runs one handler, which shows a report and leaves a new
    state, and the loop ends after a report that stops it or when the
    turns run out. */
module MenuLoop {

  /** The reports of the turns from `i` on, after the reports `done` of the
      turns before them, and the state the loop leaves. A stopping turn is
      the last one and leaves the state as it found it. */
  function Loop<S, T, R>(step: (S, T) -> (R, S), stops: R -> bool, st: S, turns: seq<T>, i: nat, done: seq<R>): (r: (seq<R>, S))
    requires i <= |turns|
    ensures |done| <= |r.0| <= |done| + |turns| - i
    decreases |turns| - i
  {
    if i == |turns| then (done, st)
    else
      var (report, next) := step(st, turns[i]);
      if stops(report) then (done + [report], st)
      else Loop(step, stops, next, turns, i + 1, done + [report])
  }

  /** The loop keeps the reports shown before it. */
  lemma {:induction false} LoopExtends<S, T, R>(step: (S, T) -> (R, S), stops: R -> bool, st: S, turns: seq<T>, i: nat, done: seq<R>)
    requires i <= |turns|
    ensures done <= Loop(step, stops, st, turns, i, done).0
    decreases |turns| - i
  {
    if i < |turns| {
      var (report, next) := step(st, turns[i]);
      if !stops(report) {
        LoopExtends(step, stops, next, turns, i + 1, done + [report]);
      }
    }
  }

  /** No report of the loop but its last stops it. */
  lemma {:induction false} LoopStopsLast<S, T, R>(step: (S, T) -> (R, S), stops: R -> bool, st: S, turns: seq<T>, i: nat, done: seq<R>)
    requires i <= |turns|
    ensures var r := Loop(step, stops, st, turns, i, done).0;
      forall k :: |done| <= k < |r| - 1 ==> !stops(r[k])
    decreases |turns| - i
  {
    if i < |turns| {
      var (report, next) := step(st, turns[i]);
      if !stops(report) {
        var more := done + [report];
        var r := Loop(step, stops, next, turns, i + 1, more).0;
        LoopStopsLast(step, stops, next, turns, i + 1, more);
        LoopExtends(step, stops, next, turns, i + 1, more);
        assert r[|done|] == more[|done|];
      }
    }
  }

  /** A loop that does not use up its turns ends on a report that stops
      it. */
  lemma {:induction false} LoopEndsOnStop<S, T, R>(step: (S, T) -> (R, S), stops: R -> bool, st: S, turns: seq<T>, i: nat, done: seq<R>)
    requires i <= |turns|
    ensures var r := Loop(step, stops, st, turns, i, done).0;
      |r| - |done| < |turns| - i ==> |r| > |done| && stops(r[|r| - 1])
    decreases |turns| - i
  {
    if i < |turns| {
      var (report, next) := step(st, turns[i]);
      if !stops(report) {
        LoopEndsOnStop(step, stops, next, turns, i + 1, done + [report]);
      }
    }
  }

  /** A property of the state that every turn keeps holds of the state the
      loop leaves. */
  lemma {:induction false} LoopKeeps<S, T, R>(step: (S, T) -> (R, S), stops: R -> bool, st: S, turns: seq<T>, i: nat, done: seq<R>,
                                              inv: S -> bool)
    requires i <= |turns| && inv(st)
    requires forall s, t :: inv(s) ==> inv(step(s, t).1)
    ensures inv(Loop(step, stops, st, turns, i, done).1)
    decreases |turns| - i
  {
    if i < |turns| {
      var (report, next) := step(st, turns[i]);
      if !stops(report) {
        LoopKeeps(step, stops, next, turns, i + 1, done + [report], inv);
      }
    }
  }
}

=== FILE: MovieApp.dfy ===
/** The interactive application over a storage backend: a menu loop that
    reads a choice and runs one command handler. Prompt answers arrive as
    inputs (`Prompts`); the fuzzy ranking of titles and the conversion of
    text to a float are parameters of the application. */
module MovieApp {
  import opened Wrappers
  import opened Catalog
  import opened Views
  import opened IStorage
  import opened MenuLoop

  /** Every record has a year and a rating, as the views compare both. */
  predicate Complete(s: seq<Entry>) {
    AllRated(s) && AllKeyed(s, ByYear)
  }

  /** The ranking only ever proposes titles it was given. */
  ghost predicate RanksKeys(rank: (string, seq<string>) -> seq<Match>) {
    forall term, keys, i :: 0 <= i < |rank(term, keys)| ==> rank(term, keys)[i].title in keys
  }

  /** What the prompts return during one command: the title (also the
      search term and the histogram's file name), year, rating and poster
      prompts, the random draw, and the raw lines typed at the questions
      that are asked again until an answer is accepted. */
  datatype Prompts = Prompts(title: string, year: int, rating: real, poster: string, pick: nat, lines: seq<string>)

  /** One pass of the menu loop: the menu choice and that command's prompts. */
  datatype Turn = Turn(choice: int, prompts: Prompts)

  /** What one command shows. */
  datatype Report =
    | Bye
    | Listed(movies: seq<Entry>)
    | Added(title: string)
    | Deleted(title: string)
    | DeleteNotFound(title: string)
    | Updated(title: string, rating: real)
    | UpdateNotFound(title: string)
    | StatsShown(stats: Stats)
    | Picked(pick: Option<Entry>)
    | Searched(result: SearchResult)
    | RatingOrder(entries: seq<Entry>)
    | HistogramSaved(filename: string, ratings: seq<real>)
    | YearOrder(latestFirst: bool, entries: seq<Entry>)
    | Filtered(criteria: Criteria, listings: seq<Listing>)
    | AddFailed(title: string, cause: LoadError)  // the exception add_movie raised, printed
    | Crashed(choice: int, cause: LoadError)      // an exception the handler does not catch
    | InputEnded(choice: int)   // input ran out while a question was being asked
    | Idle                      // a choice with no command

  /** The menu number of the command that shows `r`; -1 for none. */
  function Chosen(r: Report): int {
    match r
    case Bye => 0
    case Listed(_) => 1
    case Added(_) => 2
    case Deleted(_) => 3
    case DeleteNotFound(_) => 3
    case Updated(_, _) => 4
    case UpdateNotFound(_) => 4
    case StatsShown(_) => 5
    case Picked(_) => 6
    case Searched(_) => 7
    case RatingOrder(_) => 8
    case HistogramSaved(_, _) => 9
    case YearOrder(_, _) => 10
    case Filtered(_, _) => 11
    case AddFailed(_, _) => 2
    case Crashed(choice, _) => choice
    case InputEnded(choice) => choice
    case Idle => -1
  }

  /** The menu loop ends after this report: on quitting, on input that
      ran out, and on an exception that leaves `run`. */
  predicate Stops(r: Report) {
    r.Bye? || r.InputEnded? || r.Crashed?
  }

  // ---------------------------------------------------------------------
  // Questions asked again until an answer is accepted.

  datatype Question = MinRating | Year | LatestFirstQuestion

  predicate Accepts(q: Question, parse: string -> Option<real>, line: string) {
    match q
    case MinRating => !RatingAnswer(parse, line).Rejected?
    case Year => !YearAnswer(line).Rejected?
    case LatestFirstQuestion => AcceptsYesNo(line)
  }

  /** The first line from position `from` on that the question accepts;
      `None` when the input runs out first. */
  function FirstAccepted(q: Question, parse: string -> Option<real>, lines: seq<string>, from: nat): (k: Option<nat>)
    requires from <= |lines|
    ensures k.Some? ==> from <= k.value < |lines|
    decreases |lines| - from
  {
    if from == |lines| then None
    else if Accepts(q, parse, lines[from]) then Some(from)
    else FirstAccepted(q, parse, lines, from + 1)
  }

  /** The question is asked again exactly until an answer is accepted: the
      line it settles on is accepted and every earlier one was not; when
      the input runs out, no line was accepted. */
  lemma {:induction false} FirstAcceptedSpec(q: Question, parse: string -> Option<real>, lines: seq<string>, from: nat)
    requires from <= |lines|
    ensures var k := FirstAccepted(q, parse, lines, from);
      && (k.Some? ==> Accepts(q, parse, lines[k.value]))
      && (k.Some? ==> forall j :: from <= j < k.value ==> !Accepts(q, parse, lines[j]))
      && (k.None? ==> forall j :: from <= j < |lines| ==> !Accepts(q, parse, lines[j]))
    decreases |lines| - from
  {
    if from < |lines| && !Accepts(q, parse, lines[from]) {
      FirstAcceptedSpec(q, parse, lines, from + 1);
    }
  }

  function AsBound<T>(a: Answer<T>): Option<T> {
    if a.Bound? then Some(a.value) else None
  }

  /** The criteria the filter's three questions settle on, answered in turn
      from `lines`; `None` when the input runs out first. A minimum rating
      lies in [0.0, 10.0] and a year bound has four digits. */
  function FilterCriteria(parse: string -> Option<real>, lines: seq<string>): (r: Option<Criteria>)
    ensures r.Some? && r.value.minRating.Some? ==> 0.0 <= r.value.minRating.value <= 10.0
    ensures r.Some? && r.value.startYear.Some? ==> 0 <= r.value.startYear.value <= 9999
    ensures r.Some? && r.value.endYear.Some? ==> 0 <= r.value.endYear.value <= 9999
  {
    match FirstAccepted(MinRating, parse, lines, 0)
    case None => None
    case Some(i) =>
      match FirstAccepted(Year, parse, lines, i + 1)
      case None => None
      case Some(j) =>
        match FirstAccepted(Year, parse, lines, j + 1)
        case None => None
        case Some(k) =>
          Some(Criteria(AsBound(RatingAnswer(parse, lines[i])), AsBound(YearAnswer(lines[j])), AsBound(YearAnswer(lines[k]))))
  }

  // ---------------------------------------------------------------------
  // The menu as a specification: what each choice shows and leaves behind.

  /** What the command chosen in turn `t` shows, over collection `c`:
      each of the choices 0 to 11 runs exactly its own command, any other
      choice shows nothing, and the loop stops only on choice 0 or on a
      question whose input ran out. */
  function Respond(c: Catalog, t: Turn, parse: string -> Option<real>, rank: (string, seq<string>) -> seq<Match>): (r: Report)
    requires Complete(c) && RanksKeys(rank)
    ensures !(0 <= t.choice <= 11) ==> r == Idle
    ensures Stops(r) ==> t.choice in {0, 10, 11}
  {
    var p := t.prompts;
    if t.choice == 0 then Bye
    else if t.choice == 1 then Listed(c)
    else if t.choice == 2 then Added(p.title)
    else if t.choice == 3 then
      if p.title in Titles(c) then Deleted(p.title) else DeleteNotFound(p.title)
    else if t.choice == 4 then
      if p.title in Titles(c) then Updated(p.title, p.rating) else UpdateNotFound(p.title)
    else if 5 <= t.choice <= 9 then Show(c, t.choice, p, rank)
    else if t.choice == 10 then YearOrderReport(c, parse, p.lines)
    else if t.choice == 11 then FilterReport(c, parse, p.lines)
    else Idle
  }

  /** Each of the choices 0 to 11 runs exactly its own command. */
  lemma RespondRunsChosen(c: Catalog, t: Turn, parse: string -> Option<real>, rank: (string, seq<string>) -> seq<Match>)
    requires Complete(c) && RanksKeys(rank) && 0 <= t.choice <= 11
    ensures Chosen(Respond(c, t, parse, rank)) == t.choice
  {
    var r := Respond(c, t, parse, rank);
    var p := t.prompts;
    if t.choice == 0 {
      assert r == Bye;
    } else if t.choice == 1 {
      assert r == Listed(c);
    } else if t.choice == 2 {
      assert r == Added(p.title);
    } else if t.choice == 3 {
      assert r.Deleted? || r.DeleteNotFound?;
    } else if t.choice == 4 {
      assert r.Updated? || r.UpdateNotFound?;
    } else if 5 <= t.choice <= 9 {
      assert r == Show(c, t.choice, p, rank);
    } else if t.choice == 10 {
      assert r == YearOrderReport(c, parse, p.lines);
    } else {
      assert r == FilterReport(c, parse, p.lines);
    }
  }

  /** What the command chosen in turn `t` shows when the file does not
      load, `e` saying why: choice 0 still quits; `_command_add_movie`
      prints the exception and the loop goes on; the delete and update
      commands take the KeyError of a missing column for a missing title,
      while the TypeError of a missing cell leaves `run`; every other
      command lists the collection first, and the exception leaves `run`. */
  function Refused(e: LoadError, t: Turn): (r: Report)
    ensures !(0 <= t.choice <= 11) ==> r == Idle
    ensures 0 <= t.choice <= 11 ==> Chosen(r) == t.choice
    ensures t.choice == 2 ==> r == AddFailed(t.prompts.title, e)
    ensures (t.choice == 3 || t.choice == 4) && e.MissingColumn? ==> r.DeleteNotFound? || r.UpdateNotFound?
    ensures Stops(r) <==> t.choice == 0 || (t.choice in {1, 3, 4, 5, 6, 7, 8, 9, 10, 11} && !((t.choice == 3 || t.choice == 4) && e.MissingColumn?))
    ensures r.Crashed? ==> r.cause == e
  {
    var title := t.prompts.title;
    if t.choice == 0 then Bye
    else if t.choice == 2 then AddFailed(title, e)
    else if t.choice == 3 && e.MissingColumn? then DeleteNotFound(title)
    else if t.choice == 4 && e.MissingColumn? then UpdateNotFound(title)
    else if 1 <= t.choice <= 11 then Crashed(t.choice, e)
    else Idle
  }

  /** What the commands 5 to 9, which only read the collection and ask no
      question that is asked again, show. */
  function Show(c: Catalog, choice: int, p: Prompts, rank: (string, seq<string>) -> seq<Match>): (r: Report)
    requires Complete(c) && RanksKeys(rank) && 5 <= choice <= 9
    ensures choice == 5 ==> r.StatsShown?
    ensures choice == 6 ==> r.Picked?
    ensures choice == 7 ==> r.Searched?
    ensures choice == 8 ==> r.RatingOrder?
    ensures choice == 9 ==> r.HistogramSaved?
  {
    if choice == 5 then StatsShown(MovieStats(c))
    else if choice == 6 then Picked(RandomPick(c, p.pick))
    else if choice == 7 then Searched(SearchRanked(c, p.title, rank))
    else if choice == 8 then RatingOrder(SortByRating(c))
    else HistogramSaved(p.title, Ratings(c))
  }

  /** `_command_search_movie` over the titles as `rank` orders them. */
  function SearchRanked(c: Catalog, term: string, rank: (string, seq<string>) -> seq<Match>): SearchResult
    requires RanksKeys(rank)
  {
    Search(c, term, rank(term, Titles(c)))
  }

  /** Choice 10: the first accepted answer to the latest-first question
      orders the collection by year; none means the input ran out. */
  function YearOrderReport(c: Catalog, parse: string -> Option<real>, lines: seq<string>): (r: Report)
    requires Complete(c)
    ensures Chosen(r) == 10
  {
    match FirstAccepted(LatestFirstQuestion, parse, lines, 0)
    case None => InputEnded(10)
    case Some(k) => YearOrder(LatestFirst(lines[k]), SortByYear(c, LatestFirst(lines[k])))
  }

  /** Choice 11: the criteria the three questions settle on select the
      listings; none means the input ran out. */
  function FilterReport(c: Catalog, parse: string -> Option<real>, lines: seq<string>): (r: Report)
    requires Complete(c)
    ensures Chosen(r) == 11
  {
    match FilterCriteria(parse, lines)
    case None => InputEnded(11)
    case Some(cr) =>
      assert Comparable(c, cr);
      Filtered(cr, Selected(c, cr))
  }

  /** One of the handlers' prompt loops: asks question `q` from line
      `from` on until an answer is accepted; `None` when the input runs out
      first. */
  method Ask(q: Question, parse: string -> Option<real>, lines: seq<string>, from: nat) returns (k: Option<nat>)
    requires from <= |lines|
    ensures k == FirstAccepted(q, parse, lines, from)
  {
    var i := from;
    while i < |lines| && !Accepts(q, parse, lines[i])
      invariant from <= i <= |lines|
      invariant FirstAccepted(q, parse, lines, i) == FirstAccepted(q, parse, lines, from)
      decreases |lines| - i
    {
      i := i + 1;
    }
    k := if i == |lines| then None else Some(i);
  }

  /** The body of `_command_sort_by_year` after the listing: asks until
      'y' or 'n' is typed, then sorts by year. */
  method SortMoviesByYear(movies: Catalog, parse: string -> Option<real>, lines: seq<string>) returns (r: Report)
    requires Complete(movies)
    ensures r == YearOrderReport(movies, parse, lines)
  {
    var k := Ask(LatestFirstQuestion, parse, lines, 0);
    if k.None? {
      return InputEnded(10);
    }
    var latest := LatestFirst(lines[k.value]);
    r := YearOrder(latest, SortByYear(movies, latest));
  }

  /** The three questions of `_command_filter_movies`, each asked until its
      answer is accepted, in turn. */
  method AskCriteria(parse: string -> Option<real>, lines: seq<string>) returns (cr: Option<Criteria>)
    ensures cr == FilterCriteria(parse, lines)
  {
    var i := Ask(MinRating, parse, lines, 0);
    if i.None? {
      return None;
    }
    var j := Ask(Year, parse, lines, i.value + 1);
    if j.None? {
      return None;
    }
    var k := Ask(Year, parse, lines, j.value + 1);
    if k.None? {
      return None;
    }
    cr := Some(Criteria(AsBound(RatingAnswer(parse, lines[i.value])),
                        AsBound(YearAnswer(lines[j.value])),
                        AsBound(YearAnswer(lines[k.value]))));
  }

  /** The filter loop of `_command_filter_movies`: the listing of every
      entry meeting the criteria, in order. */
  method FilterEntries(movies: seq<Entry>, cr: Criteria) returns (filtered: seq<Listing>)
    requires Comparable(movies, cr)
    ensures filtered == Selected(movies, cr)
  {
    filtered := [];
    for n := 0 to |movies|
      invariant filtered == Selected(movies[..n], cr)
    {
      var e := movies[n];
      assert movies[..n + 1][..n] == movies[..n];
      if cr.minRating.Some? && e.movie.rating.value < cr.minRating.value {
        continue;
      }
      if cr.startYear.Some? && e.movie.year.value < cr.startYear.value {
        continue;
      }
      if cr.endYear.Some? && e.movie.year.value > cr.endYear.value {
        continue;
      }
      filtered := filtered + [Listing(e.title, e.movie.year, e.movie.rating)];
    }
    assert movies[..|movies|] == movies;
  }

  /** The body of `_command_filter_movies` after the listing. */
  method FilterMovies(movies: Catalog, parse: string -> Option<real>, lines: seq<string>) returns (r: Report)
    requires Complete(movies)
    ensures r == FilterReport(movies, parse, lines)
  {
    var cr := AskCriteria(parse, lines);
    if cr.None? {
      return InputEnded(11);
    }
    assert Comparable(movies, cr.value);
    var filtered := FilterEntries(movies, cr.value);
    r := Filtered(cr.value, filtered);
  }

  /** Storing a record with a year and a rating keeps the collection
      complete. */
  lemma PutComplete(c: Catalog, t: string, m: Movie)
    requires Complete(c) && m.year.Some? && m.rating.Some?
    ensures Complete(Put(c, t, m))
  {
    var r := Put(c, t, m);
    forall i | 0 <= i < |r| ensures HasKey(r[i], ByRating) && HasKey(r[i], ByYear) {
      assert Get(r, r[i].title) == Some(r[i].movie);
      if r[i].title != t {
        var k :| 0 <= k < |c| && c[k].title == r[i].title;
        assert Get(c, r[i].title) == Some(c[k].movie);
      }
    }
  }

  /** Removing a key keeps the collection complete. */
  lemma RemoveComplete(c: Catalog, t: string)
    requires Complete(c)
    ensures Complete(Remove(c, t))
  {
    var r := Remove(c, t);
    forall i | 0 <= i < |r| ensures HasKey(r[i], ByRating) && HasKey(r[i], ByYear) {
      assert Get(r, r[i].title) == Some(r[i].movie);
      var k :| 0 <= k < |c| && c[k].title == r[i].title;
      assert Get(c, r[i].title) == Some(c[k].movie);
    }
  }

  /** Changing a rating to a present one keeps the collection complete. */
  lemma SetRatingComplete(c: Catalog, t: string, rating: Option<real>)
    requires Complete(c) && rating.Some?
    ensures Complete(SetRating(c, t, rating))
  {
    var r := SetRating(c, t, rating);
    forall i | 0 <= i < |r| ensures HasKey(r[i], ByRating) && HasKey(r[i], ByYear) {
      assert Get(r, r[i].title) == Some(r[i].movie);
      assert r[i].title in Titles(c);
      var k :| 0 <= k < |c| && c[k].title == r[i].title;
      assert Get(c, r[i].title) == Some(c[k].movie);
    }
  }

  /** The collection the storage lists after turn `t`: only add, delete and
      update change it, and delete and update only when the title is a key. */
  function Effect(s: Storage, c: Catalog, t: Turn): (r: Catalog)
    requires s.Valid() && Complete(c)
    ensures Complete(r)
  {
    var p := t.prompts;
    if t.choice == 2 then
      PutComplete(c, p.title, Movie(Some(p.year), Some(p.rating), Some(p.poster)));
      s.Persisted(Put(c, p.title, Movie(Some(p.year), Some(p.rating), Some(p.poster))))
    else if t.choice == 3 && p.title in Titles(c) then
      RemoveComplete(c, p.title);
      s.Persisted(Remove(c, p.title))
    else if t.choice == 4 && p.title in Titles(c) then
      SetRatingComplete(c, p.title, Some(p.rating));
      s.Persisted(SetRating(c, p.title, Some(p.rating)))
    else c
  }

  /** What `list_movies` gives at the start of a turn: the collection, or
      why the file does not load. */
  type Loaded = Result<Catalog, LoadError>

  /** A state the run can work on: a file that does not load, or a
      collection whose every record has a year and a rating. */
  predicate Usable(st: Loaded) {
    st.Err? || Complete(st.value)
  }

  /** What the command chosen in turn `t` shows, whether or not the file
      loads. */
  function Reply(st: Loaded, t: Turn, parse: string -> Option<real>, rank: (string, seq<string>) -> seq<Match>): Report
    requires Usable(st) && RanksKeys(rank)
  {
    match st
    case Ok(c) => Respond(c, t, parse, rank)
    case Err(e) => Refused(e, t)
  }

  /** What `list_movies` gives after turn `t`: a file that does not load is
      never written, so it stays as it was. */
  function After(s: Storage, st: Loaded, t: Turn): (r: Loaded)
    requires s.Valid() && Usable(st)
    ensures Usable(r)
    ensures st.Err? ==> r == st
    ensures st.Ok? ==> r.Ok?
  {
    match st
    case Ok(c) => Ok(Effect(s, c, t))
    case Err(_) => st
  }

  /** One pass of `run`'s loop as the loop sees it: what the command chosen
      in turn `t` shows and what it leaves. The loop only ever reaches
      usable states (see `SessionUsable`); on any other it shows nothing. */
  ghost function Turned(s: Storage, parse: string -> Option<real>, rank: (string, seq<string>) -> seq<Match>): (Loaded, Turn) -> (Report, Loaded)
    requires s.Valid() && RanksKeys(rank)
  {
    (st: Loaded, t: Turn) => if Usable(st) then (Reply(st, t, parse, rank), After(s, st, t)) else (Idle, st)
  }

  /** A whole run leaves a usable state: a collection that still has every
      year and rating, or the file that did not load. */
  lemma SessionUsable(s: Storage, parse: string -> Option<real>, rank: (string, seq<string>) -> seq<Match>,
                      st: Loaded, turns: seq<Turn>)
    requires s.Valid() && Usable(st) && RanksKeys(rank)
    ensures Usable(Loop(Turned(s, parse, rank), Stops, st, turns, 0, []).1)
  {
    var step := Turned(s, parse, rank);
    forall d: Loaded, t: Turn | Usable(d) ensures Usable(step(d, t).1) {
    }
    LoopKeeps(step, Stops, st, turns, 0, [], (d: Loaded) => Usable(d));
  }

  /** A file that does not load is left as it is by a whole run. */
  lemma UnloadableFileKept(s: Storage, parse: string -> Option<real>, rank: (string, seq<string>) -> seq<Match>,
                           e: LoadError, turns: seq<Turn>)
    requires s.Valid() && RanksKeys(rank)
    ensures Loop(Turned(s, parse, rank), Stops, Err(e), turns, 0, []).1 == Err(e)
  {
    var step := Turned(s, parse, rank);
    forall d: Loaded, t: Turn | d == Err(e) ensures step(d, t).1 == Err(e) {
    }
    LoopKeeps(step, Stops, Err(e), turns, 0, [], (d: Loaded) => d == Err(e));
  }

  /** One turn of a run: a turn that stops the loop ends it with the
      state as it was, and any other turn is followed by the run over
      the state it leaves. */
  lemma SessionStep(s: Storage, parse: string -> Option<real>, rank: (string, seq<string>) -> seq<Match>,
                    st: Loaded, turns: seq<Turn>, i: nat, done: seq<Report>, r: Report, after: Loaded)
    requires s.Valid() && Usable(st) && RanksKeys(rank) && i < |turns|
    requires r == Reply(st, turns[i], parse, rank) && after == After(s, st, turns[i])
    ensures Stops(r) ==> after == st && Loop(Turned(s, parse, rank), Stops, st, turns, i, done) == (done + [r], st)
    ensures !Stops(r) ==>
      Loop(Turned(s, parse, rank), Stops, st, turns, i, done) == Loop(Turned(s, parse, rank), Stops, after, turns, i + 1, done + [r])
  {
    StopLeavesCollection(s, st, turns[i], parse, rank);
  }

  /** Only choices 2, 3 and 4 change the collection. */
  lemma OnlyWritesChange(s: Storage, st: Loaded, t: Turn)
    requires s.Valid() && Usable(st)
    ensures t.choice !in {2, 3, 4} ==> After(s, st, t) == st
  {
  }

  /** A turn that stops the loop leaves the state as it was. */
  lemma StopLeavesCollection(s: Storage, st: Loaded, t: Turn, parse: string -> Option<real>, rank: (string, seq<string>) -> seq<Match>)
    requires s.Valid() && Usable(st) && RanksKeys(rank)
    ensures Stops(Reply(st, t, parse, rank)) ==> After(s, st, t) == st
  {
    if Stops(Reply(st, t, parse, rank)) && st.Ok? {
      OnlyWritesChange(s, st, t);
    }
  }

  /** Choice 0 ends the run at once, with the state as it was. */
  lemma QuitEndsSession(s: Storage, parse: string -> Option<real>, rank: (string, seq<string>) -> seq<Match>,
                        st: Loaded, turns: seq<Turn>, i: nat, done: seq<Report>)
    requires s.Valid() && Usable(st) && RanksKeys(rank)
    requires i < |turns| && turns[i].choice == 0
    ensures Loop(Turned(s, parse, rank), Stops, st, turns, i, done) == (done + [Bye], st)
  {
  }

  /** A delete or update of a title that is not a key is reported, leaves
      the collection as it was, and the loop goes on. */
  lemma KeyErrorReported(s: Storage, c: Catalog, t: Turn, parse: string -> Option<real>, rank: (string, seq<string>) -> seq<Match>)
    requires s.Valid() && Complete(c) && RanksKeys(rank)
    requires (t.choice == 3 || t.choice == 4) && t.prompts.title !in Titles(c)
    ensures Respond(c, t, parse, rank) == (if t.choice == 3 then DeleteNotFound(t.prompts.title) else UpdateNotFound(t.prompts.title))
    ensures !Stops(Respond(c, t, parse, rank)) && Effect(s, c, t) == c
  {
  }

  // ---------------------------------------------------------------------

  class MovieApp {
    const storage: Storage
    /** Python's `float(...)` on a string; `None` where it raises ValueError. */
    const parseFloat: string -> Option<real>
    /** The fuzzy ranking of the keys against a search term, best first. */
    const rank: (string, seq<string>) -> seq<Match>

    constructor (storage: Storage, parseFloat: string -> Option<real>, rank: (string, seq<string>) -> seq<Match>)
      ensures this.storage == storage && this.parseFloat == parseFloat && this.rank == rank
    {
      this.storage := storage;
      this.parseFloat := parseFloat;
      this.rank := rank;
    }

    /** The storage's rating conversion is sound, and the ranking stays
        within the keys it is given. */
    ghost predicate Valid()
      reads storage.Obj()
    {
      storage.Valid() && RanksKeys(rank)
    }

    /** What `list_movies` gives now: the collection, or why the file does
        not load. */
    ghost function State(): Loaded
      reads storage.Obj()
    {
      storage.Contents()
    }

    /** `self._storage.list_movies()`: the collection as it is, or the
        exception loading raises. */
    method ListAll() returns (movies: Loaded)
      ensures movies == old(State())
    {
      movies := IStorage.ListMovies(storage);
    }

    /** `_command_list_movies`; a file that does not load ends the run. */
    method CommandListMovies() returns (r: Report)
      ensures old(State()).Ok? ==> r == Listed(old(State()).value)
      ensures old(State()).Err? ==> r == Crashed(1, old(State()).error)
    {
      var movies := ListAll();
      r := if movies.Ok? then Listed(movies.value) else Crashed(1, movies.error);
    }

    /** `_command_add_movie`: stores the prompted record under the title;
        the exception of a file that does not load is printed instead. */
    method CommandAddMovie(p: Prompts) returns (r: Report)
      requires Valid()
      modifies storage.Obj()
      ensures Valid()
      ensures old(State()).Ok? ==>
        State() == Ok(storage.Persisted(Put(old(State()).value, p.title, Movie(Some(p.year), Some(p.rating), Some(p.poster)))))
        && r == Added(p.title)
      ensures old(State()).Err? ==> State() == old(State()) && r == AddFailed(p.title, old(State()).error)
    {
      var outcome := IStorage.AddMovie(storage, p.title, Some(p.year), Some(p.rating), Some(p.poster));
      r := if outcome == Pass then Added(p.title) else AddFailed(p.title, outcome.error.cause);
    }

    /** `_command_delete_movie`: a KeyError, from a missing title or a
        missing column, is reported and not propagated. */
    method CommandDeleteMovie(p: Prompts) returns (r: Report)
      requires Valid()
      modifies storage.Obj()
      ensures Valid()
      ensures old(State()).Ok? && p.title in Titles(old(State()).value) ==>
        r == Deleted(p.title) && State() == Ok(storage.Persisted(Remove(old(State()).value, p.title)))
      ensures old(State()).Ok? && p.title !in Titles(old(State()).value) ==>
        r == DeleteNotFound(p.title) && State() == old(State())
      ensures old(State()).Err? ==>
        State() == old(State()) &&
        r == (if old(State()).error.MissingColumn? then DeleteNotFound(p.title) else Crashed(3, old(State()).error))
    {
      var outcome := IStorage.DeleteMovie(storage, p.title);
      r := match outcome
        case Pass => Deleted(p.title)
        case Fail(Malformed(MissingCell(column))) => Crashed(3, MissingCell(column))
        case Fail(_) => DeleteNotFound(p.title);
    }

    /** `_command_update_movie`: a KeyError, from a missing title or a
        missing column, is reported and not propagated. */
    method CommandUpdateMovie(p: Prompts) returns (r: Report)
      requires Valid()
      modifies storage.Obj()
      ensures Valid()
      ensures old(State()).Ok? && p.title in Titles(old(State()).value) ==>
        r == Updated(p.title, p.rating) && State() == Ok(storage.Persisted(SetRating(old(State()).value, p.title, Some(p.rating))))
      ensures old(State()).Ok? && p.title !in Titles(old(State()).value) ==>
        r == UpdateNotFound(p.title) && State() == old(State())
      ensures old(State()).Err? ==>
        State() == old(State()) &&
        r == (if old(State()).error.MissingColumn? then UpdateNotFound(p.title) else Crashed(4, old(State()).error))
    {
      var outcome := IStorage.UpdateMovie(storage, p.title, Some(p.rating));
      r := match outcome
        case Pass => Updated(p.title, p.rating)
        case Fail(Malformed(MissingCell(column))) => Crashed(4, MissingCell(column))
        case Fail(_) => UpdateNotFound(p.title);
    }

    /** The commands 5 to 9: `_command_movie_stats`, `_command_random_movie`,
        `_command_search_movie`, `_command_sort_by_rating` and
        `_command_create_rating_histogram`, each over one listing. */
    method CommandShow(choice: int, p: Prompts) returns (r: Report)
      requires Valid() && Usable(State()) && 5 <= choice <= 9
      ensures old(State()).Ok? ==> r == Show(old(State()).value, choice, p, rank)
      ensures old(State()).Err? ==> r == Crashed(choice, old(State()).error)
    {
      var movies := ListAll();
      if movies.Err? {
        return Crashed(choice, movies.error);
      }
      r := Show(movies.value, choice, p, rank);
    }

    /** `_command_sort_by_year`: lists the collection, then asks and sorts. */
    method CommandSortByYear(p: Prompts) returns (r: Report)
      requires Usable(State())
      ensures old(State()).Ok? ==> r == YearOrderReport(old(State()).value, parseFloat, p.lines)
      ensures old(State()).Err? ==> r == Crashed(10, old(State()).error)
    {
      var movies := ListAll();
      if movies.Err? {
        return Crashed(10, movies.error);
      }
      r := SortMoviesByYear(movies.value, parseFloat, p.lines);
    }

    /** `_command_filter_movies`: lists the collection, then asks the three
        criteria and filters. */
    method CommandFilterMovies(p: Prompts) returns (r: Report)
      requires Usable(State())
      ensures old(State()).Ok? ==> r == FilterReport(old(State()).value, parseFloat, p.lines)
      ensures old(State()).Err? ==> r == Crashed(11, old(State()).error)
    {
      var movies := ListAll();
      if movies.Err? {
        return Crashed(11, movies.error);
      }
      r := FilterMovies(movies.value, parseFloat, p.lines);
    }

    /** The choices that do not write: each runs its own command over the
        collection as it is, or none. */
    method HandleQuery(t: Turn) returns (r: Report)
      requires Valid() && Usable(State()) && t.choice !in {2, 3, 4}
      ensures r == Reply(old(State()), t, parseFloat, rank)
    {
      var p := t.prompts;
      if t.choice == 0 {
        r := Bye;
      } else if t.choice == 1 {
        r := CommandListMovies();
      } else if 5 <= t.choice <= 9 {
        r := CommandShow(t.choice, p);
      } else if t.choice == 10 {
        r := CommandSortByYear(p);
      } else if t.choice == 11 {
        r := CommandFilterMovies(p);
      } else {
        r := Idle;
      }
    }

    /** One pass of `run`'s loop after the choice is read. */
    method Handle(t: Turn) returns (r: Report)
      requires Valid() && Usable(State())
      modifies storage.Obj()
      ensures Valid()
      ensures r == Reply(old(State()), t, parseFloat, rank)
      ensures State() == After(storage, old(State()), t)
    {
      var p := t.prompts;
      if t.choice == 2 {
        r := CommandAddMovie(p);
      } else if t.choice == 3 {
        r := CommandDeleteMovie(p);
      } else if t.choice == 4 {
        r := CommandUpdateMovie(p);
      } else {
        r := HandleQuery(t);
      }
    }

    /** One pass of `run`'s loop, seen from the run: the turn that stops
        the loop is the run's last, and any other turn is followed by the
        run over the state it leaves. */
    method Step(turns: seq<Turn>, i: nat, ghost done: seq<Report>) returns (r: Report)
      requires Valid() && Usable(State()) && i < |turns|
      modifies storage.Obj()
      ensures Valid() && Usable(State())
      ensures Stops(r) ==>
        Loop(Turned(storage, parseFloat, rank), Stops, old(State()), turns, i, done) == (done + [r], State())
      ensures !Stops(r) ==>
        Loop(Turned(storage, parseFloat, rank), Stops, old(State()), turns, i, done)
          == Loop(Turned(storage, parseFloat, rank), Stops, State(), turns, i + 1, done + [r])
    {
      ghost var before := State();
      r := Handle(turns[i]);
      SessionStep(storage, parseFloat, rank, before, turns, i, done, r, State());
    }

    /** `run`: handles the turns in order until choice 0 is made, a
        question runs out of input, an exception leaves a handler, or the
        turns are used up. */
    method Run(turns: seq<Turn>) returns (reports: seq<Report>)
      requires Valid() && Usable(State())
      modifies storage.Obj()
      ensures Valid()
      ensures (reports, State()) == Loop(Turned(storage, parseFloat, rank), Stops, old(State()), turns, 0, [])
    {
      ghost var whole := Loop(Turned(storage, parseFloat, rank), Stops, State(), turns, 0, []);
      reports := [];
      var i := 0;
      while i < |turns|
        invariant i <= |turns|
        invariant Valid() && Usable(State())
        invariant Loop(Turned(storage, parseFloat, rank), Stops, State(), turns, i, reports) == whole
        decreases |turns| - i
      {
        var r := Step(turns, i, reports);
        reports := reports + [r];
        if Stops(r) {
          return;
        }
        i := i + 1;
      }
    }
  }
}

=== FILE: MovieManager.dfy ===
/** The stand-alone list-based manager: a collection of films filled from
    OMDb answers, with a case-insensitive delete, a listing, rating stats
    and a command-line loop. The OMDb request and Python's `float(...)` are
    inputs of the model. */
module MovieManager {
  import opened Wrappers
  import opened Cells
  import opened MenuLoop

  /** One film as OMDb describes it; every field is the text OMDb sent. */
  datatype Film = Film(title: string, year: string, rating: string, posterUrl: string)

  /** What the OMDb request gives: no usable reply (the request failed or
      the HTTP status was an error), or the reply's fields. */
  datatype OmdbAnswer = RequestFailed | Reply(fields: map<string, string>)

  /** Why `add_movie` raised. */
  datatype AddError =
    | ApiUnreachable            // RequestException
    | NotInOmdb(title: string)  // ValueError: OMDb answered "Response": "False"

  /** `data.get(key, default)`. */
  function Field(data: map<string, string>, key: string, default: string): (v: string)
    ensures key in data ==> v == data[key]
    ensures key !in data ==> v == default
  {
    if key in data then data[key] else default
  }

  /** OMDb's way of saying it knows no such film. */
  predicate Unknown(data: map<string, string>) {
    "Response" in data && data["Response"] == "False"
  }

  /** The film `add_movie` builds from a reply: a missing title, year or
      rating reads as "N/A", a missing poster as the empty string. */
  function FilmOf(data: map<string, string>): Film {
    Film(Field(data, "Title", "N/A"), Field(data, "Year", "N/A"), Field(data, "imdbRating", "N/A"), Field(data, "Poster", ""))
  }

  // ---------------------------------------------------------------------
  // Delete: the list comprehension that keeps the other titles.

  /** Titles are compared lower-cased. */
  predicate Matches(f: Film, title: string) {
    Lower(f.title) == Lower(title)
  }

  /** `[movie for movie in movies if movie.title.lower() != title.lower()]`. */
  function Without(s: seq<Film>, title: string): (r: seq<Film>)
    ensures |r| <= |s|
  {
    if s == [] then []
    else (if Matches(s[0], title) then [] else [s[0]]) + Without(s[1..], title)
  }

  /** The kept films are exactly the films that do not match. */
  lemma {:induction false} WithoutMembers(s: seq<Film>, title: string)
    ensures forall f :: f in Without(s, title) <==> f in s && !Matches(f, title)
  {
    if s != [] {
      WithoutMembers(s[1..], title);
      assert s == [s[0]] + s[1..];
    }
  }

  /** The filter works piece by piece, so the kept films stay in their order. */
  lemma {:induction false} WithoutAppend(a: seq<Film>, b: seq<Film>, title: string)
    ensures Without(a + b, title) == Without(a, title) + Without(b, title)
  {
    if a != [] {
      WithoutAppend(a[1..], b, title);
      assert (a + b)[0] == a[0];
      assert (a + b)[1..] == a[1..] + b;
    } else {
      assert a + b == b;
    }
  }

  /** Nothing is dropped exactly when no film matches, and then the list
      is kept as it is. */
  lemma {:induction false} WithoutSame(s: seq<Film>, title: string)
    ensures |Without(s, title)| == |s| <==> forall i :: 0 <= i < |s| ==> !Matches(s[i], title)
    ensures |Without(s, title)| == |s| ==> Without(s, title) == s
  {
    if s != [] {
      WithoutSame(s[1..], title);
      if !Matches(s[0], title) {
        forall i | 0 < i < |s| && (forall j :: 0 <= j < |s| - 1 ==> !Matches(s[1..][j], title))
          ensures !Matches(s[i], title)
        {
          assert s[i] == s[1..][i - 1];
        }
      }
    }
  }

  // ---------------------------------------------------------------------
  // Stats.

  /** The ratings the stats consider: every rating that is not "N/A", in
      collection order. */
  function RatingTexts(s: seq<Film>): (r: seq<string>)
    ensures |r| <= |s|
  {
    if s == [] then []
    else (if s[0].rating != "N/A" then [s[0].rating] else []) + RatingTexts(s[1..])
  }

  lemma {:induction false} RatingTextsSpec(s: seq<Film>)
    ensures forall x :: x in RatingTexts(s) <==> x != "N/A" && exists i :: 0 <= i < |s| && s[i].rating == x
    ensures RatingTexts(s) == [] <==> forall i :: 0 <= i < |s| ==> s[i].rating == "N/A"
  {
    if s != [] {
      RatingTextsSpec(s[1..]);
      forall x ensures x in RatingTexts(s) <==> x != "N/A" && exists i :: 0 <= i < |s| && s[i].rating == x {
        if exists i :: 0 <= i < |s| && s[i].rating == x {
          var i :| 0 <= i < |s| && s[i].rating == x;
          if i > 0 {
            assert s[1..][i - 1].rating == x;
          }
        }
        if x in RatingTexts(s[1..]) {
          var i :| 0 <= i < |s| - 1 && s[1..][i].rating == x;
          assert s[i + 1].rating == x;
        }
      }
      if forall i :: 0 <= i < |s| - 1 ==> s[1..][i].rating == "N/A" {
        forall i | 0 < i < |s| ensures s[i].rating == "N/A" {
          assert s[i] == s[1..][i - 1];
        }
      }
    }
  }

  /** What `stats` comes to: a rating that `float` rejects raises
      ValueError, which ends the program; no rating left gives the message;
      otherwise the ratings it averages. */
  datatype StatsReport = NotANumber(text: string) | NoValidRatings | AverageOf(ratings: seq<real>)

  /** `[float(t) for t in texts]`: the values, or the first text that does
      not convert. */
  function Floats(texts: seq<string>, parse: string -> Option<real>): (r: Result<seq<real>, string>)
    ensures r.Ok? ==> |r.value| == |texts| && forall k :: 0 <= k < |texts| ==> parse(texts[k]) == Some(r.value[k])
    ensures r.Err? ==> exists k :: 0 <= k < |texts| && texts[k] == r.error && parse(texts[k]).None?
                                 && forall j :: 0 <= j < k ==> parse(texts[j]).Some?
    ensures r.Err? <==> exists k :: 0 <= k < |texts| && parse(texts[k]).None?
  {
    if texts == [] then Ok([])
    else match parse(texts[0])
      case None => Err(texts[0])
      case Some(v) =>
        assert forall k :: 0 < k < |texts| ==> texts[k] == texts[1..][k - 1];
        match Floats(texts[1..], parse)
        case Err(t) =>
          var k :| 0 <= k < |texts| - 1 && texts[1..][k] == t && parse(texts[1..][k]).None?
                   && forall j :: 0 <= j < k ==> parse(texts[1..][j]).Some?;
          assert texts[k + 1] == t;
          Err(t)
        case Ok(vs) =>
          Ok([v] + vs)
  }

  function StatsOf(s: seq<Film>, parse: string -> Option<real>): (r: StatsReport)
    ensures r.NoValidRatings? ==> RatingTexts(s) == []
    ensures r.AverageOf? ==> |r.ratings| == |RatingTexts(s)| > 0
  {
    match Floats(RatingTexts(s), parse)
    case Err(t) => NotANumber(t)
    case Ok(vs) => if vs == [] then NoValidRatings else AverageOf(vs)
  }

  /** The stats report no ratings exactly when every rating is "N/A". */
  lemma StatsNoRatings(s: seq<Film>, parse: string -> Option<real>)
    ensures StatsOf(s, parse).NoValidRatings? <==> forall i :: 0 <= i < |s| ==> s[i].rating == "N/A"
  {
    RatingTextsSpec(s);
  }

  // ---------------------------------------------------------------------
  // The command line.

  /** `s.split(' ', 1)`: the text before the first space and, when there is
      a space, the text after it. */
  function SplitOnce(s: string): (r: (string, Option<string>))
    ensures |r.0| <= |s|
  {
    if s == [] then ([], None)
    else if s[0] == ' ' then ([], Some(s[1..]))
    else
      var rest := SplitOnce(s[1..]);
      ([s[0]] + rest.0, rest.1)
  }

  /** The head has no space, and joining the two parts with a space gives
      the line back. */
  lemma {:induction false} SplitOnceSpec(s: string)
    ensures var (head, tail) := SplitOnce(s);
      && ' ' !in head
      && (tail.None? ==> head == s)
      && (tail.Some? ==> s == head + " " + tail.value)
  {
    if s != [] && s[0] != ' ' {
      SplitOnceSpec(s[1..]);
      assert s == [s[0]] + s[1..];
    }
  }

  /** `cmd = input().strip().split(' ', 1)`, `action = cmd[0].lower()` and
      `arg = cmd[1] if len(cmd) > 1 else ''`. */
  function ParseLine(line: string): (r: (string, string))
    ensures var t := Strip(line); var (action, arg) := r;
      && |action| <= |t|
      && (' ' in t ==> exists head :: ' ' !in head && t == head + " " + arg && action == Lower(head))
      && (' ' !in t ==> action == Lower(t) && arg == "")
  {
    var t := Strip(line);
    SplitOnceSpec(t);
    var (head, tail) := SplitOnce(t);
    if tail.Some? then
      assert t == head + " " + tail.value;
      (Lower(head), tail.value)
    else
      (Lower(head), "")
  }

  datatype Command = AddCmd(title: string) | DeleteCmd(title: string) | ListCmd | StatsCmd | HelpCmd | QuitCmd | UnknownCmd

  /** The `if`/`elif` chain of the loop. `add` and `delete` act only on a
      non-empty argument, which is all of the line after the first space;
      anything unrecognised, a bare `add` or `delete` included, is an
      unknown command. */
  function Classify(line: string): (r: Command)
    ensures var (action, arg) := ParseLine(line);
      && (r.AddCmd? <==> action == "add" && arg != "")
      && (r.AddCmd? ==> r.title == arg)
      && (r.DeleteCmd? <==> action == "delete" && arg != "")
      && (r.DeleteCmd? ==> r.title == arg)
      && (r.QuitCmd? <==> action == "quit" || action == "exit")
      && (r.UnknownCmd? <==>
            action !in {"add", "delete", "list", "stats", "help", "quit", "exit"}
            || (action in {"add", "delete"} && arg == ""))
  {
    var (action, arg) := ParseLine(line);
    if action == "add" && arg != "" then AddCmd(arg)
    else if action == "delete" && arg != "" then DeleteCmd(arg)
    else if action == "list" then ListCmd
    else if action == "stats" then StatsCmd
    else if action == "help" then HelpCmd
    else if action == "quit" || action == "exit" then QuitCmd
    else UnknownCmd
  }

  /** One line of input and the answer OMDb would give to an `add` on it. */
  datatype CliTurn = CliTurn(line: string, answer: OmdbAnswer)

  /** What one command shows. */
  datatype Output =
    | Added(film: Film)
    | AddFailed(error: AddError)
    | Deleted(title: string)
    | NothingDeleted(title: string)
    | EmptyCollection
    | Listing(films: seq<Film>)
    | StatsShown(report: StatsReport)
    | HelpShown
    | Goodbye
    | UnknownCommand

  /** The loop ends on `quit` or `exit`, and on the ValueError a
      non-numeric rating raises in `stats`, which nothing catches. */
  predicate Ends(o: Output) {
    o.Goodbye? || (o.StatsShown? && o.report.NotANumber?)
  }

  /** What `add_movie` does with an OMDb answer: the outcome and the new list. */
  function AddOutcome(s: seq<Film>, title: string, answer: OmdbAnswer): (r: (Outcome<AddError>, seq<Film>))
    ensures r.0.Pass? <==> answer.Reply? && !Unknown(answer.fields)
    ensures r.0.Pass? ==> r.1 == s + [FilmOf(answer.fields)]
    ensures r.0.Fail? ==> r.1 == s
    ensures r.0 == Fail(ApiUnreachable) <==> answer.RequestFailed?
  {
    match answer
    case RequestFailed => (Fail(ApiUnreachable), s)
    case Reply(data) =>
      if Unknown(data) then (Fail(NotInOmdb(title)), s) else (Pass, s + [FilmOf(data)])
  }

  /** One pass of the command-line loop over the list `s`: what it shows
      and the list it leaves. */
  function Respond(s: seq<Film>, t: CliTurn, parse: string -> Option<real>): (r: (Output, seq<Film>))
    ensures !Classify(t.line).AddCmd? && !Classify(t.line).DeleteCmd? ==> r.1 == s
    ensures Ends(r.0) ==> r.1 == s
  {
    match Classify(t.line)
    case AddCmd(title) =>
      var (outcome, after) := AddOutcome(s, title, t.answer);
      (if outcome.Pass? then Added(after[|after| - 1]) else AddFailed(outcome.error), after)
    case DeleteCmd(title) =>
      var after := Without(s, title);
      (if |after| == |s| then NothingDeleted(title) else Deleted(title), after)
    case ListCmd => (if s == [] then EmptyCollection else Listing(s), s)
    case StatsCmd => (StatsShown(StatsOf(s, parse)), s)
    case HelpCmd => (HelpShown, s)
    case QuitCmd => (Goodbye, s)
    case UnknownCmd => (UnknownCommand, s)
  }

  /** The loop's step as the loop sees it: a turn that ends the loop
      leaves the list as it was, and only `add` and `delete` change it. */
  function Turned(parse: string -> Option<real>): (step: (seq<Film>, CliTurn) -> (Output, seq<Film>))
    ensures forall s: seq<Film>, t: CliTurn :: Ends(step(s, t).0) ==> step(s, t).1 == s
    ensures forall s: seq<Film>, t: CliTurn :: !Classify(t.line).AddCmd? && !Classify(t.line).DeleteCmd? ==> step(s, t).1 == s
  {
    (s: seq<Film>, t: CliTurn) => Respond(s, t, parse)
  }

  /** `quit` or `exit` ends the loop at once, with the list as it was. */
  lemma QuitEndsLoop(parse: string -> Option<real>, s: seq<Film>, turns: seq<CliTurn>, i: nat, done: seq<Output>)
    requires i < |turns| && Classify(turns[i].line).QuitCmd?
    ensures Loop(Turned(parse), Ends, s, turns, i, done) == (done + [Goodbye], s)
  {
  }

  /** A delete reports "not found" exactly when no title matches, and then
      the list is as it was. */
  lemma DeleteReport(s: seq<Film>, t: CliTurn, parse: string -> Option<real>)
    requires Classify(t.line).DeleteCmd?
    ensures var title := Classify(t.line).title;
      && (Respond(s, t, parse).0 == NothingDeleted(title) <==> forall i :: 0 <= i < |s| ==> !Matches(s[i], title))
      && (Respond(s, t, parse).0 == NothingDeleted(title) ==> Respond(s, t, parse).1 == s)
  {
    WithoutSame(s, Classify(t.line).title);
  }

  // ---------------------------------------------------------------------

  class MovieCollection {
    var movies: seq<Film>

    constructor ()
      ensures movies == []
    {
      movies := [];
    }

    /** `add_movie`: appends the film OMDb describes; raises when the
        request fails or OMDb does not know the title, adding nothing. */
    method AddMovie(title: string, answer: OmdbAnswer) returns (r: Outcome<AddError>)
      modifies this
      ensures (r, movies) == AddOutcome(old(movies), title, answer)
    {
      if answer.RequestFailed? {
        return Fail(ApiUnreachable);
      }
      var data := answer.fields;
      if "Response" in data && data["Response"] == "False" {
        return Fail(NotInOmdb(title));
      }
      var movie := Film(Field(data, "Title", "N/A"), Field(data, "Year", "N/A"), Field(data, "imdbRating", "N/A"), Field(data, "Poster", ""));
      movies := movies + [movie];
      r := Pass;
    }

    /** `delete_movie`: keeps the films whose title differs from `title`
        case-insensitively, in their order, and tells whether any went. */
    method DeleteMovie(title: string) returns (deleted: bool)
      modifies this
      ensures movies == Without(old(movies), title)
      ensures deleted <==> exists i :: 0 <= i < |old(movies)| && Matches(old(movies)[i], title)
    {
      var before := |movies|;
      WithoutSame(movies, title);
      movies := Without(movies, title);
      var after := |movies|;
      deleted := before != after;
    }

    /** `list_movies`: the message when the list is empty, else every film. */
    method ListMovies() returns (r: Output)
      ensures r == EmptyCollection <==> movies == []
      ensures r != EmptyCollection ==> r == Listing(movies)
    {
      if movies == [] {
        return EmptyCollection;
      }
      r := Listing(movies);
    }

    /** `stats`: the ratings that are not "N/A", converted with `float`.
        There are none exactly when every rating is "N/A"; otherwise the
        average is over the float of each such rating, in collection order,
        unless one of them does not convert: then the first that does not
        is the ValueError that ends the program. */
    method Stats(parse: string -> Option<real>) returns (r: StatsReport)
      ensures r == StatsOf(movies, parse)
      ensures r.NoValidRatings? <==> forall i :: 0 <= i < |movies| ==> movies[i].rating == "N/A"
      ensures r.AverageOf? ==>
        var texts := RatingTexts(movies);
        |r.ratings| == |texts| && forall k :: 0 <= k < |texts| ==> parse(texts[k]) == Some(r.ratings[k])
      ensures r.NotANumber? <==> exists k :: 0 <= k < |RatingTexts(movies)| && parse(RatingTexts(movies)[k]).None?
      ensures r.NotANumber? ==>
        var texts := RatingTexts(movies);
        exists k :: 0 <= k < |texts| && texts[k] == r.text && parse(r.text).None?
                    && forall j :: 0 <= j < k ==> parse(texts[j]).Some?
      ensures r.NotANumber? ==> r.text != "N/A" && exists i :: 0 <= i < |movies| && movies[i].rating == r.text
    {
      r := StatsOf(movies, parse);
      StatsNoRatings(movies, parse);
      RatingTextsSpec(movies);
      if r.NotANumber? {
        var texts := RatingTexts(movies);
        var k :| 0 <= k < |texts| && texts[k] == r.text;
        assert r.text in texts;
      }
    }

    /** One pass of the command-line loop. */
    method Execute(t: CliTurn, parse: string -> Option<real>) returns (o: Output)
      modifies this
      ensures (o, movies) == Respond(old(movies), t, parse)
    {
      match Classify(t.line)
      case AddCmd(title) =>
        var outcome := AddMovie(title, t.answer);
        o := if outcome.Pass? then Added(movies[|movies| - 1]) else AddFailed(outcome.error);
      case DeleteCmd(title) =>
        var deleted := DeleteMovie(title);
        WithoutSame(old(movies), title);
        o := if deleted then Deleted(title) else NothingDeleted(title);
      case ListCmd =>
        o := ListMovies();
      case StatsCmd =>
        var report := Stats(parse);
        o := StatsShown(report);
      case HelpCmd =>
        o := HelpShown;
      case QuitCmd =>
        o := Goodbye;
      case UnknownCmd =>
        o := UnknownCommand;
    }
  }

  /** The `__main__` loop: runs the lines in order until `quit` or `exit`,
      an uncaught ValueError from `stats`, or the end of the input. */
  method CommandLine(collection: MovieCollection, turns: seq<CliTurn>, parse: string -> Option<real>) returns (outputs: seq<Output>)
    modifies collection
    ensures (outputs, collection.movies) == Loop(Turned(parse), Ends, old(collection.movies), turns, 0, [])
  {
    ghost var whole := Loop(Turned(parse), Ends, collection.movies, turns, 0, []);
    outputs := [];
    var i := 0;
    while i < |turns|
      invariant i <= |turns|
      invariant Loop(Turned(parse), Ends, collection.movies, turns, i, outputs) == whole
      decreases |turns| - i
    {
      var o := collection.Execute(turns[i], parse);
      outputs := outputs + [o];
      if Ends(o) {
        return;
      }
      i := i + 1;
    }
  }
}

=== FILE: MovieStorage.dfy ===
/** The module-level draft of the JSON store: the module's functions work
    on one global data file, modelled here as the one object of class
    `DataFile`. Unlike the backends, adding refuses an existing title and
    stores no poster field. */
module MovieStorage {
  import opened Wrappers
  import opened Catalog

  /** The module's `DATA_FILE`. */
  const DataFilePath: string := "data.json"

  class DataFile {
    const path: string
    /** What the data file holds; `None` when it does not exist yet. */
    var contents: Option<Catalog>

    constructor (contents: Option<Catalog>)
      ensures path == DataFilePath && this.contents == contents
    {
      path := DataFilePath;
      this.contents := contents;
    }

    /** What `get_movies` would return now. */
    ghost function Movies(): Catalog
      reads this
    {
      contents.GetOr([])
    }

    /** `get_movies`: the whole database, `{}` when the file does not exist. */
    method GetMovies() returns (movies: Catalog)
      ensures contents.None? ==> movies == []
      ensures contents.Some? ==> movies == contents.value
    {
      movies := if contents.Some? then contents.value else [];
    }

    /** `save_movies`: overwrites the file with `movies`. */
    method SaveMovies(movies: Catalog)
      modifies this
      ensures contents == Some(movies)
    {
      contents := Some(movies);
    }

    /** `add_movie`: ValueError, with nothing saved, when `title` already
        exists; otherwise stores `{year, rating}` (no poster) under it. */
    method AddMovie(title: string, year: Option<int>, rating: Option<real>) returns (r: Outcome<Failure>)
      modifies this
      ensures title in Titles(old(Movies())) ==> r == Fail(AlreadyExists(title)) && contents == old(contents)
      ensures title !in Titles(old(Movies())) ==>
        r == Pass && contents == Some(old(Movies()) + [Entry(title, Movie(year, rating, None))])
    {
      var movies := GetMovies();
      if title in Titles(movies) {
        return Fail(AlreadyExists(title));
      }
      movies := Put(movies, title, Movie(year, rating, None));
      SaveMovies(movies);
      r := Pass;
    }

    /** `delete_movie`: KeyError when `title` does not exist; otherwise
        removes only that key. */
    method DeleteMovie(title: string) returns (r: Outcome<Failure>)
      modifies this
      ensures title !in Titles(old(Movies())) ==> r == Fail(NotFound(title)) && contents == old(contents)
      ensures title in Titles(old(Movies())) ==> r == Pass && contents == Some(Remove(old(Movies()), title))
    {
      var movies := GetMovies();
      if title !in Titles(movies) {
        return Fail(NotFound(title));
      }
      movies := Remove(movies, title);
      SaveMovies(movies);
      r := Pass;
    }

    /** `update_movie`: KeyError when `title` does not exist; otherwise
        changes only that record's rating. */
    method UpdateMovie(title: string, newRating: Option<real>) returns (r: Outcome<Failure>)
      modifies this
      ensures title !in Titles(old(Movies())) ==> r == Fail(NotFound(title)) && contents == old(contents)
      ensures title in Titles(old(Movies())) ==>
        r == Pass && contents == Some(SetRating(old(Movies()), title, newRating))
    {
      var movies := GetMovies();
      if title !in Titles(movies) {
        return Fail(NotFound(title));
      }
      movies := SetRating(movies, title, newRating);
      SaveMovies(movies);
      r := Pass;
    }
  }
}

=== FILE: StorageCsv.dfy ===
/** The tabular-text (CSV) backend. The file is modelled as its rows of
    cells: the first row is the header, each later row one record. How the
    csv module quotes cells into text and splits text back into cells is not
    modelled. */
module StorageCsv {
  import opened Wrappers
  import opened Catalog
  import opened Cells

  type Row = seq<string>

  /** The header `_save` writes, in this order. */
  const Header: Row := ["title", "year", "rating", "poster"]

  /** `csv.DictReader`'s view of one data row: every header name maps to
      the row's cell in that column, or to `None` (the reader's `restval`)
      when the row is too short; a name that appears twice in the header
      keeps its last column, and cells beyond the header are not reachable
      by name. */
  function RowDict(header: Row, row: Row): (d: map<string, Option<string>>)
    ensures d.Keys == set name | name in header
  {
    if header == [] then map[]
    else
      var n := |header| - 1;
      assert forall name :: name in header <==> name in header[..n] || name == header[n];
      RowDict(header[..n], row)[header[n] := if n < |row| then Some(row[n]) else None]
  }

  /** The body of `_load`'s loop for one non-blank row, as a function: the
      record it stores, or why Python raises. `title`, `year` and `rating`
      are read with `row[...]` (KeyError when the column is missing); the
      year and rating cells are converted with `int` and `float` (TypeError
      on a missing cell, an absent value when the text does not convert);
      the poster is `row.get('poster', '')`. */
  function DecodeRow(header: Row, row: Row, codec: RatingCodec): (r: Result<Entry, LoadError>)
    ensures r.Err? ==> r.error.column in {"title", "year", "rating"}
    ensures r.Err? && r.error.MissingColumn? ==> r.error.column !in header
    ensures "title" in header && "year" in header && "rating" in header ==> r.Ok? || r.error.MissingCell?
    ensures r.Ok? ==> "title" in header && "year" in header && "rating" in header
    ensures r.Ok? && "poster" !in header ==> r.value.movie.poster == Some("")
  {
    var d := RowDict(header, row);
    if "title" !in d then Err(MissingColumn("title"))
    else if "year" !in d then Err(MissingColumn("year"))
    else if d["year"].None? then Err(MissingCell("year"))
    else if "rating" !in d then Err(MissingColumn("rating"))
    else if d["rating"].None? then Err(MissingCell("rating"))
    else if d["title"].None? then Err(MissingCell("title"))
    else
      var poster := if "poster" in d then d["poster"] else Some("");
      Ok(Entry(d["title"].value, Movie(ParseInt(d["year"].value), codec.parse(d["rating"].value), poster)))
  }

  /** The collection `_load` builds from the data rows, in order: blank rows
      are skipped, each other row is stored with `movies[title] = ...`, and
      the first row that raises ends the load. */
  function LoadRows(header: Row, rows: seq<Row>, codec: RatingCodec): (r: Result<Catalog, LoadError>)
    ensures r.Err? ==> exists k :: 0 <= k < |rows| && rows[k] != [] && DecodeRow(header, rows[k], codec) == Err(r.error)
    ensures r.Ok? ==> |r.value| <= |rows|
    ensures r.Ok? ==> forall k :: 0 <= k < |rows| && rows[k] != [] ==>
      DecodeRow(header, rows[k], codec).Ok? && DecodeRow(header, rows[k], codec).value.title in Titles(r.value)
  {
    if rows == [] then Ok([])
    else match LoadRows(header, rows[..|rows| - 1], codec)
      case Err(e) => Err(e)
      case Ok(movies) =>
        var row := rows[|rows| - 1];
        assert forall k :: 0 <= k < |rows| - 1 ==> rows[k] == rows[..|rows| - 1][k];
        if row == [] then Ok(movies)
        else match DecodeRow(header, row, codec)
          case Err(e) => Err(e)
          case Ok(entry) => Ok(Put(movies, entry.title, entry.movie))
  }

  /** What `_load` returns for the file: empty when there is no file or it
      has no rows; otherwise the rows after the header, read by it. */
  function LoadFile(file: Option<seq<Row>>, codec: RatingCodec): (r: Result<Catalog, LoadError>)
    ensures r.Err? ==> file.Some? && |file.value| > 1
    ensures r.Ok? ==> |r.value| <= if file.Some? && file.value != [] then |file.value| - 1 else 0
  {
    match file
    case None => Ok([])
    case Some(rows) => if rows == [] then Ok([]) else LoadRows(rows[0], rows[1..], codec)
  }

  /** The row `_save` writes for one record. */
  function EncodeRow(e: Entry, codec: RatingCodec): (r: Row)
    ensures |r| == |Header|
    ensures r[0] == e.title && ParseInt(r[1]) == e.movie.year && r[3] == e.movie.poster.GetOr("")
    ensures e.movie.rating.None? ==> r[2] == ""
  {
    YearCellRoundTrip(e.movie.year);
    [e.title, YearCell(e.movie.year), RatingCell(codec, e.movie.rating), PosterCell(e.movie.poster)]
  }

  /** The data rows `_save` writes: one per record, in iteration order. */
  function DataRows(movies: seq<Entry>, codec: RatingCodec): (rows: seq<Row>)
    ensures |rows| == |movies|
  {
    seq(|movies|, i requires 0 <= i < |movies| => EncodeRow(movies[i], codec))
  }

  class StorageCsv {
    /** The path given at construction; it selects the file and nothing else. */
    const filePath: string
    /** Python's float conversion and float printing. */
    const codec: RatingCodec
    /** The rows of the file at `filePath`; `None` when no file exists. */
    var file: Option<seq<Row>>

    constructor (filePath: string, codec: RatingCodec, file: Option<seq<Row>>)
      ensures this.filePath == filePath && this.codec == codec && this.file == file
    {
      this.filePath := filePath;
      this.codec := codec;
      this.file := file;
    }

    /** What `_load` would return now. */
    ghost function Contents(): Result<Catalog, LoadError>
      reads this
    {
      LoadFile(file, codec)
    }

    /** `_load`: reads the header, then stores each non-blank row's record. */
    method Load() returns (r: Result<Catalog, LoadError>)
      ensures r == LoadFile(file, codec)
    {
      if file.None? || file.value == [] {
        return Ok([]);
      }
      var header := file.value[0];
      var data := file.value[1..];
      var movies: Catalog := [];
      for i := 0 to |data|
        invariant LoadRows(header, data[..i], codec) == Ok(movies)
      {
        assert data[..i + 1][..i] == data[..i];
        var row := data[i];
        if row == [] {
          continue;
        }
        var d := RowDict(header, row);
        var failure: Option<LoadError> := None;
        if "title" !in d {
          failure := Some(MissingColumn("title"));
        } else if "year" !in d {
          failure := Some(MissingColumn("year"));
        } else if d["year"].None? {
          failure := Some(MissingCell("year"));
        } else if "rating" !in d {
          failure := Some(MissingColumn("rating"));
        } else if d["rating"].None? {
          failure := Some(MissingCell("rating"));
        } else if d["title"].None? {
          failure := Some(MissingCell("title"));
        }
        if failure.Some? {
          LoadErrorPersists(header, data, i + 1, codec);
          return Err(failure.value);
        }
        var year := ParseInt(d["year"].value);
        var rating := codec.parse(d["rating"].value);
        var poster := if "poster" in d then d["poster"] else Some("");
        movies := Put(movies, d["title"].value, Movie(year, rating, poster));
      }
      assert data[..|data|] == data;
      r := Ok(movies);
    }

    /** `_save`: rewrites the file from scratch, the header first and then
        one row per record in iteration order. */
    method Save(movies: Catalog)
      modifies this
      ensures file == Some([Header] + DataRows(movies, codec))
    {
      var rows := [Header];
      for i := 0 to |movies|
        invariant rows == [Header] + DataRows(movies[..i], codec)
      {
        rows := rows + [EncodeRow(movies[i], codec)];
      }
      assert movies[..|movies|] == movies;
      file := Some(rows);
    }

    /** `list_movies`. */
    method ListMovies() returns (r: Result<Catalog, LoadError>)
      ensures r == LoadFile(file, codec)
    {
      r := Load();
    }

    /** `add_movie`: inserts or overwrites the record of `title` and saves;
        a file that does not load is left as it is. */
    method AddMovie(title: string, year: Option<int>, rating: Option<real>, poster: Option<string>)
      returns (r: Outcome<Failure>)
      modifies this
      ensures old(Contents()).Err? ==> r == Fail(Malformed(old(Contents()).error)) && file == old(file)
      ensures old(Contents()).Ok? ==>
        r == Pass && file == Some([Header] + DataRows(Put(old(Contents()).value, title, Movie(year, rating, poster)), codec))
    {
      var loaded := Load();
      if loaded.Err? {
        return Fail(Malformed(loaded.error));
      }
      var movies := Put(loaded.value, title, Movie(year, rating, poster));
      Save(movies);
      r := Pass;
    }

    /** `delete_movie`: KeyError, before any write, when `title` is not a
        key; otherwise removes exactly that key and saves. */
    method DeleteMovie(title: string) returns (r: Outcome<Failure>)
      modifies this
      ensures old(Contents()).Err? ==> r == Fail(Malformed(old(Contents()).error)) && file == old(file)
      ensures old(Contents()).Ok? && title !in Titles(old(Contents()).value) ==>
        r == Fail(NotFound(title)) && file == old(file)
      ensures old(Contents()).Ok? && title in Titles(old(Contents()).value) ==>
        r == Pass && file == Some([Header] + DataRows(Remove(old(Contents()).value, title), codec))
    {
      var loaded := Load();
      if loaded.Err? {
        return Fail(Malformed(loaded.error));
      }
      var movies := loaded.value;
      if title !in Titles(movies) {
        return Fail(NotFound(title));
      }
      movies := Remove(movies, title);
      Save(movies);
      r := Pass;
    }

    /** `update_movie`: KeyError, before any write, when `title` is not a
        key; otherwise sets only that record's rating and saves. */
    method UpdateMovie(title: string, rating: Option<real>) returns (r: Outcome<Failure>)
      modifies this
      ensures old(Contents()).Err? ==> r == Fail(Malformed(old(Contents()).error)) && file == old(file)
      ensures old(Contents()).Ok? && title !in Titles(old(Contents()).value) ==>
        r == Fail(NotFound(title)) && file == old(file)
      ensures old(Contents()).Ok? && title in Titles(old(Contents()).value) ==>
        r == Pass && file == Some([Header] + DataRows(SetRating(old(Contents()).value, title, rating), codec))
    {
      var loaded := Load();
      if loaded.Err? {
        return Fail(Malformed(loaded.error));
      }
      var movies := loaded.value;
      if title !in Titles(movies) {
        return Fail(NotFound(title));
      }
      movies := SetRating(movies, title, rating);
      Save(movies);
      r := Pass;
    }
  }

  /** Each header name is given the cell of its last column, and no value
      when the row is too short to reach that column. */
  lemma {:induction false} RowDictLookup(header: Row, row: Row, k: nat)
    requires k < |header| && header[k] !in header[k + 1..]
    ensures RowDict(header, row)[header[k]] == if k < |row| then Some(row[k]) else None
    decreases |header|
  {
    var n := |header| - 1;
    if k < n {
      assert header[..n][k] == header[k] && header[..n][k + 1..] == header[k + 1..n];
      assert header[n] in header[k + 1..];
      RowDictLookup(header[..n], row, k);
    }
  }

  /** DictReader's view of a row under the header `_save` writes. */
  lemma StandardRowDict(row: Row)
    requires |row| == 4
    ensures RowDict(Header, row) == map["title" := Some(row[0]), "year" := Some(row[1]),
                                        "rating" := Some(row[2]), "poster" := Some(row[3])]
  {
    var h3, h2, h1 := ["title", "year", "rating"], ["title", "year"], ["title"];
    assert Header[..3] == h3 && h3[..2] == h2 && h2[..1] == h1 && h1[..0] == [];
    assert RowDict(h1, row) == map["title" := Some(row[0])];
    assert RowDict(h2, row) == map["title" := Some(row[0]), "year" := Some(row[1])];
    assert RowDict(h3, row) == map["title" := Some(row[0]), "year" := Some(row[1]), "rating" := Some(row[2])];
  }

  /** Under the standard header, a four-cell row is always kept: its title
      is the first cell, its year and rating are whatever `int` and `float`
      make of their cells (absent when they do not convert) and its poster
      is the last cell. */
  lemma DecodeStandardRow(row: Row, codec: RatingCodec)
    requires |row| == 4
    ensures DecodeRow(Header, row, codec)
         == Ok(Entry(row[0], Movie(ParseInt(row[1]), codec.parse(row[2]), Some(row[3]))))
  {
    StandardRowDict(row);
  }

  /** A row whose year cell is not a number (here "N/A") loads with its
      year absent, and the row is still stored. */
  lemma UnparseableYearKept(row: Row, codec: RatingCodec)
    requires |row| == 4 && row[1] == "N/A"
    ensures DecodeRow(Header, row, codec) == Ok(Entry(row[0], Movie(None, codec.parse(row[2]), Some(row[3]))))
  {
    DecodeStandardRow(row, codec);
    NotANumber(row[1]);
  }

  /** A cell that starts with neither white space `int` skips, a sign nor a
      digit does not convert with `int`. */
  lemma NotANumber(cell: string)
    requires cell != [] && !IsIntSpace(cell[0]) && !IsIntSpace(cell[|cell| - 1])
    requires cell[0] != '+' && cell[0] != '-' && !IsDigit(cell[0])
    ensures ParseInt(cell) == None
  {
    StripKeeps(cell, IsIntSpace);
  }

  /** When two rows share a title, the later row's record is the one kept,
      in the position where the title first appeared. */
  lemma {:induction false} LaterRowWins(header: Row, rows: seq<Row>, row: Row, codec: RatingCodec)
    requires LoadRows(header, rows, codec).Ok? && row != []
    requires DecodeRow(header, row, codec).Ok?
    ensures var e := DecodeRow(header, row, codec).value;
            var before := LoadRows(header, rows, codec).value;
            && LoadRows(header, rows + [row], codec).Ok?
            && Get(LoadRows(header, rows + [row], codec).value, e.title) == Some(e.movie)
            && (e.title in Titles(before) ==> Titles(LoadRows(header, rows + [row], codec).value) == Titles(before))
  {
    assert (rows + [row])[..|rows + [row]| - 1] == rows;
  }

  /** A missing file loads as the empty collection. */
  lemma MissingFileIsEmpty(codec: RatingCodec)
    ensures LoadFile(None, codec) == Ok([])
  {
  }

  /** The record a saved one reads back as: the same title and year, the
      rating `float` makes of the rating's printed text, and an absent
      poster as the empty string. */
  function Reread(e: Entry, codec: RatingCodec): Entry {
    Entry(e.title, Movie(e.movie.year, RatingReread(codec, e.movie.rating), Some(PosterCell(e.movie.poster))))
  }

  /** Every record as it reads back after a save; keys and order are
      untouched. */
  function RereadAll(c: Catalog, codec: RatingCodec): (r: Catalog)
    ensures Titles(r) == Titles(c)
    ensures forall i :: 0 <= i < |c| ==> r[i] == Reread(c[i], codec)
  {
    var r := seq(|c|, i requires 0 <= i < |c| => Reread(c[i], codec));
    assert Titles(r) == Titles(c);
    r
  }

  /** What a save and a load do to each record: the year is kept, a rating
      stays absent or present, a float rating is kept exactly, and an absent
      poster becomes the empty string; saving and loading again changes
      nothing more. */
  lemma RereadSpec(c: Catalog, codec: RatingCodec)
    requires Sound(codec)
    ensures var r := RereadAll(c, codec);
      forall i :: 0 <= i < |c| ==>
        && r[i].movie.year == c[i].movie.year
        && (r[i].movie.rating.None? <==> c[i].movie.rating.None?)
        && (c[i].movie.rating.Some? && IsFloat(codec, c[i].movie.rating.value) ==> r[i].movie.rating == c[i].movie.rating)
        && r[i].movie.poster == Some(c[i].movie.poster.GetOr(""))
    ensures RereadAll(RereadAll(c, codec), codec) == RereadAll(c, codec)
  {
    var r := RereadAll(c, codec);
    forall i | 0 <= i < |c|
      ensures (r[i].movie.rating.None? <==> c[i].movie.rating.None?)
      ensures c[i].movie.rating.Some? && IsFloat(codec, c[i].movie.rating.value) ==> r[i].movie.rating == c[i].movie.rating
      ensures Reread(r[i], codec) == r[i]
    {
      RatingCellRoundTrip(codec, c[i].movie.rating);
    }
    assert RereadAll(r, codec) == r;
  }

  /** A collection whose ratings are floats (or absent) and whose posters
      are all present reads back exactly as it was saved. */
  lemma RereadKeeps(c: Catalog, codec: RatingCodec)
    requires Sound(codec)
    requires forall i :: 0 <= i < |c| ==> c[i].movie.poster.Some?
    requires forall i :: 0 <= i < |c| ==> c[i].movie.rating.None? || IsFloat(codec, c[i].movie.rating.value)
    ensures RereadAll(c, codec) == c
  {
    RereadSpec(c, codec);
  }

  /** Saving and then loading gives back every record, as `Reread` reads
      it: titles, order and years unchanged, and ratings as `float` reads
      their printed text. */
  lemma SaveLoadRoundTrip(movies: Catalog, codec: RatingCodec)
    ensures LoadFile(Some([Header] + DataRows(movies, codec)), codec) == Ok(RereadAll(movies, codec))
  {
    assert ([Header] + DataRows(movies, codec))[1..] == DataRows(movies, codec);
    LoadDataRows(movies, codec);
  }

  lemma {:induction false} LoadDataRows(movies: Catalog, codec: RatingCodec)
    ensures LoadRows(Header, DataRows(movies, codec), codec) == Ok(RereadAll(movies, codec))
  {
    var rows := DataRows(movies, codec);
    if movies == [] {
      assert RereadAll(movies, codec) == [];
    } else {
      var n := |movies| - 1;
      PrefixDistinct(movies, n);
      var prefix: Catalog := movies[..n];
      var e := movies[n];
      assert rows[..n] == DataRows(prefix, codec);
      assert rows[n] == EncodeRow(e, codec);
      LoadDataRows(prefix, codec);
      DecodeEncoded(e, codec);
      LastKeyNew(movies);
      AppendReread(movies, prefix, codec);
    }
  }

  /** The row written for a record is kept on loading, and reads back as
      the record `Reread` gives. */
  lemma DecodeEncoded(e: Entry, codec: RatingCodec)
    ensures DecodeRow(Header, EncodeRow(e, codec), codec) == Ok(Reread(e, codec))
  {
    var row := EncodeRow(e, codec);
    DecodeStandardRow(row, codec);
    YearCellRoundTrip(e.movie.year);
  }

  lemma AppendReread(movies: Catalog, prefix: Catalog, codec: RatingCodec)
    requires movies != [] && prefix == movies[..|movies| - 1]
    ensures RereadAll(prefix, codec) + [Reread(movies[|movies| - 1], codec)] == RereadAll(movies, codec)
  {
  }

  /** Once a row raises, the load raises that error whatever rows follow. */
  lemma {:induction false} LoadErrorPersists(header: Row, rows: seq<Row>, k: nat, codec: RatingCodec)
    requires k <= |rows| && LoadRows(header, rows[..k], codec).Err?
    ensures LoadRows(header, rows, codec) == LoadRows(header, rows[..k], codec)
    decreases |rows| - k
  {
    if k < |rows| {
      assert rows[..k + 1][..k] == rows[..k];
      LoadErrorPersists(header, rows, k + 1, codec);
    } else {
      assert rows[..k] == rows;
    }
  }
}

=== FILE: StorageJson.dfy ===
/** The structured-text (JSON) backend: every operation loads the whole
    collection from the file, changes at most one key, and writes the whole
    collection back. The file is modelled by the collection last written to
    it; turning that collection into JSON text and back is not modelled. */
module StorageJson {
  import opened Wrappers
  import opened Catalog

  class StorageJson {
    /** The path given at construction; it selects the file and nothing else. */
    const filePath: string
    /** What the file at `filePath` holds; `None` when no file exists. */
    var file: Option<Catalog>

    /** A store over `filePath`, whose file currently holds `file`. */
    constructor (filePath: string, file: Option<Catalog>)
      ensures this.filePath == filePath && this.file == file
    {
      this.filePath := filePath;
      this.file := file;
    }

    /** What `_load` would return now. */
    ghost function Contents(): Catalog
      reads this
    {
      file.GetOr([])
    }

    /** `_load`: the stored collection, or the empty one when there is no file. */
    method Load() returns (movies: Catalog)
      ensures file.None? ==> movies == []
      ensures file.Some? ==> movies == file.value
    {
      match file
      case None => movies := [];
      case Some(stored) => movies := stored;
    }

    /** `_save`: overwrites the whole file with `movies`. */
    method Save(movies: Catalog)
      modifies this
      ensures file == Some(movies)
    {
      file := Some(movies);
    }

    /** `list_movies`: the entire title -> record mapping. */
    method ListMovies() returns (movies: Catalog)
      ensures file.None? ==> movies == []
      ensures file.Some? ==> movies == file.value
    {
      movies := Load();
    }

    /** `add_movie`: inserts or overwrites the record of `title`, with no
        check of its arguments, and saves. */
    method AddMovie(title: string, year: Option<int>, rating: Option<real>, poster: Option<string>)
      modifies this
      ensures file == Some(Put(old(Contents()), title, Movie(year, rating, poster)))
    {
      var movies := Load();
      movies := Put(movies, title, Movie(year, rating, poster));
      Save(movies);
    }

    /** `delete_movie`: KeyError, before any write, when `title` is not a
        key; otherwise removes exactly that key and saves. */
    method DeleteMovie(title: string) returns (r: Outcome<Failure>)
      modifies this
      ensures title !in Titles(old(Contents())) ==> r == Fail(NotFound(title)) && file == old(file)
      ensures title in Titles(old(Contents())) ==> r == Pass && file == Some(Remove(old(Contents()), title))
    {
      var movies := Load();
      if title !in Titles(movies) {
        return Fail(NotFound(title));
      }
      movies := Remove(movies, title);
      Save(movies);
      r := Pass;
    }

    /** `update_movie`: KeyError, before any write, when `title` is not a
        key; otherwise sets only that record's rating and saves. */
    method UpdateMovie(title: string, rating: Option<real>) returns (r: Outcome<Failure>)
      modifies this
      ensures title !in Titles(old(Contents())) ==> r == Fail(NotFound(title)) && file == old(file)
      ensures title in Titles(old(Contents())) ==> r == Pass && file == Some(SetRating(old(Contents()), title, rating))
    {
      var movies := Load();
      if title !in Titles(movies) {
        return Fail(NotFound(title));
      }
      movies := SetRating(movies, title, rating);
      Save(movies);
      r := Pass;
    }
  }

  /** A collection whose only key is `e`'s title, holding `e`'s record, is
      `e` alone. */
  lemma OnlyEntry(c: Catalog, e: Entry)
    requires Titles(c) == [e.title] && Get(c, e.title) == Some(e.movie)
    ensures c == [e]
  {
    assert c[0].title == Titles(c)[0];
  }

  /** The storage test: starting without a file, listing is empty; after
      adding Matrix (1999, 8.7) it holds Matrix at 8.7; after updating the
      rating it holds 9.0; after deleting Matrix it is empty again. */
  method MatrixScenario() returns (listed: seq<Catalog>)
    ensures listed == [
      [],
      [Entry("Matrix", Movie(Some(1999), Some(8.7), Some("/img/matrix.jpg")))],
      [Entry("Matrix", Movie(Some(1999), Some(9.0), Some("/img/matrix.jpg")))],
      []]
  {
    var storage := new StorageJson("../test_movies.json", None);
    var matrix := Entry("Matrix", Movie(Some(1999), Some(8.7), Some("/img/matrix.jpg")));
    var rerated := Entry("Matrix", Movie(Some(1999), Some(9.0), Some("/img/matrix.jpg")));
    var empty := storage.ListMovies();
    storage.AddMovie("Matrix", Some(1999), Some(8.7), Some("/img/matrix.jpg"));
    var added := storage.ListMovies();
    assert added == [matrix] by {
      assert "Matrix" !in Titles(empty);
    }
    var updated := storage.UpdateMovie("Matrix", Some(9.0));
    var rated := storage.ListMovies();
    assert rated == [rerated] by {
      assert Titles(added) == ["Matrix"];
      OnlyEntry(rated, rerated);
    }
    var deleted := storage.DeleteMovie("Matrix");
    var emptied := storage.ListMovies();
    assert |emptied| == 0 by {
      assert "Matrix" in Titles(rated);
    }
    listed := [empty, added, rated, emptied];
  }
}

=== FILE: Views.dfy ===
/** The read-only views the application computes from the collection it
    lists: statistics, the two sorts, the three-criterion filter with the
    acceptance rules of its prompts, the threshold and limit that turn a
    ranked fuzzy-match list into suggestions, and the random pick. */
module Views {
  import opened Wrappers
  import opened Catalog
  import opened Cells

  // ---------------------------------------------------------------------
  // Fields the views compare. Python raises TypeError when it compares an
  // absent (None) year or rating; the views require the fields present.

  /** Every entry has a rating: the rating is the sort key they all have. */
  predicate AllRated(s: seq<Entry>) {
    AllKeyed(s, ByRating)
  }

  function RatingOf(e: Entry): real
    requires e.movie.rating.Some?
  {
    e.movie.rating.value
  }

  /** `[info['rating'] for info in movies.values()]`. */
  function Ratings(s: seq<Entry>): (rs: seq<real>)
    requires AllRated(s)
    ensures |rs| == |s| && forall i :: 0 <= i < |s| ==> rs[i] == RatingOf(s[i])
  {
    seq(|s|, i requires 0 <= i < |s| && AllRated(s) => RatingOf(s[i]))
  }

  // ---------------------------------------------------------------------
  // `sorted(ratings)` and the median taken from it.

  predicate Ascending(s: seq<real>) {
    forall i, j :: 0 <= i < j < |s| ==> s[i] <= s[j]
  }

  /** Inserts `x` before the first element it does not exceed. */
  function InsertAsc(x: real, s: seq<real>): (r: seq<real>)
    ensures |r| == |s| + 1
    ensures r[0] == x || (s != [] && r[0] == s[0])
  {
    if s == [] || x <= s[0] then [x] + s else [s[0]] + InsertAsc(x, s[1..])
  }

  /** Inserting into an ascending sequence keeps it ascending and adds
      exactly `x`. */
  lemma {:induction false} InsertAscSorted(x: real, s: seq<real>)
    requires Ascending(s)
    ensures Ascending(InsertAsc(x, s))
  {
    var r := InsertAsc(x, s);
    if s == [] || x <= s[0] {
      assert r == [x] + s;
      forall i, j | 0 <= i < j < |r| ensures r[i] <= r[j] {
        assert r[j] == s[j - 1];
        if i > 0 {
          assert r[i] == s[i - 1];
        } else if j > 1 {
          assert s[0] <= s[j - 1];
        }
      }
    } else {
      var t := s[1..];
      assert Ascending(t) by {
        forall i, j | 0 <= i < j < |t| ensures t[i] <= t[j] {
          assert t[i] == s[i + 1] && t[j] == s[j + 1];
        }
      }
      var rest := InsertAsc(x, t);
      InsertAscSorted(x, t);
      assert r == [s[0]] + rest;
      assert s == [s[0]] + t;
      assert s[0] <= rest[0];
      forall i, j | 0 <= i < j < |r| ensures r[i] <= r[j] {
        assert r[j] == rest[j - 1];
        if i > 0 {
          assert r[i] == rest[i - 1];
        } else if j > 1 {
          assert rest[0] <= rest[j - 1];
        }
      }
    }
  }

  /** A non-empty sequence holds its first element and the rest. */
  lemma MultisetCons<T>(s: seq<T>)
    requires s != []
    ensures multiset(s) == multiset(s[1..]) + multiset{s[0]}
  {
    assert s == [s[0]] + s[1..];
  }

  lemma {:induction false} InsertAscPermutes(x: real, s: seq<real>)
    ensures multiset(InsertAsc(x, s)) == multiset(s) + multiset{x}
  {
    if s == [] || x <= s[0] {
      assert InsertAsc(x, s) == [x] + s;
    } else {
      var r := InsertAsc(x, s);
      InsertAscPermutes(x, s[1..]);
      assert r[0] == s[0] && r[1..] == InsertAsc(x, s[1..]);
      MultisetCons(r);
      MultisetCons(s);
    }
  }

  /** `sorted(ratings)`: the ratings in ascending order. */
  function SortAsc(s: seq<real>): (r: seq<real>)
    ensures |r| == |s|
  {
    if s == [] then [] else InsertAsc(s[0], SortAsc(s[1..]))
  }

  /** The sorted ratings are in ascending order. */
  lemma {:induction false} SortAscSorted(s: seq<real>)
    ensures Ascending(SortAsc(s))
  {
    if s != [] {
      SortAscSorted(s[1..]);
      InsertAscSorted(s[0], SortAsc(s[1..]));
    }
  }

  /** Sorting the ratings loses and adds none of them. */
  lemma {:induction false} SortAscPermutes(s: seq<real>)
    ensures multiset(SortAsc(s)) == multiset(s)
  {
    if s != [] {
      SortAscPermutes(s[1..]);
      InsertAscPermutes(s[0], SortAsc(s[1..]));
      MultisetCons(s);
    }
  }

  /** An ascending sequence is its own sorted order. */
  lemma {:induction false} SortAscKeepsSorted(s: seq<real>)
    requires Ascending(s)
    ensures SortAsc(s) == s
  {
    if s != [] {
      SortAscKeepsSorted(s[1..]);
      assert s == [s[0]] + s[1..];
    }
  }

  /** `sorted(ratings)[len(ratings)//2]`. */
  function Median(rs: seq<real>): real
    requires |rs| > 0
  {
    SortAsc(rs)[|rs| / 2]
  }

  /** Which side of a value an element is counted on. */
  datatype Side = AtMost | AtLeast

  predicate On(side: Side, y: real, m: real) {
    match side
    case AtMost => y <= m
    case AtLeast => y >= m
  }

  /** How many elements of `s` lie on `side` of `m`. */
  function Count(s: seq<real>, side: Side, m: real): (n: nat)
    ensures n <= |s|
  {
    if s == [] then 0 else (if On(side, s[0], m) then 1 else 0) + Count(s[1..], side, m)
  }

  lemma {:induction false} CountAppend(a: seq<real>, b: seq<real>, side: Side, m: real)
    ensures Count(a + b, side, m) == Count(a, side, m) + Count(b, side, m)
  {
    if a != [] {
      assert (a + b)[1..] == a[1..] + b;
      CountAppend(a[1..], b, side, m);
    } else {
      assert a + b == b;
    }
  }

  lemma {:induction false} CountAll(s: seq<real>, side: Side, m: real)
    requires forall k :: 0 <= k < |s| ==> On(side, s[k], m)
    ensures Count(s, side, m) == |s|
  {
    if s != [] {
      CountAll(s[1..], side, m);
    }
  }

  /** Inserting `x` adds its own share to the count. */
  lemma {:induction false} CountInsertAsc(x: real, s: seq<real>, side: Side, m: real)
    ensures Count(InsertAsc(x, s), side, m) == (if On(side, x, m) then 1 else 0) + Count(s, side, m)
  {
    var r := InsertAsc(x, s);
    if s == [] || x <= s[0] {
      assert r[1..] == s;
    } else {
      CountInsertAsc(x, s[1..], side, m);
      assert r[1..] == InsertAsc(x, s[1..]);
    }
  }

  /** Sorting does not change how many ratings lie on either side of `m`. */
  lemma {:induction false} CountSortAsc(s: seq<real>, side: Side, m: real)
    ensures Count(SortAsc(s), side, m) == Count(s, side, m)
  {
    if s != [] {
      CountSortAsc(s[1..], side, m);
      CountInsertAsc(s[0], SortAsc(s[1..]), side, m);
    }
  }

  /** In ascending order, the elements up to index `k` are at most the
      one there. */
  lemma {:induction false} SortedCountAtMost(r: seq<real>, k: nat)
    requires Ascending(r) && k < |r|
    ensures Count(r, AtMost, r[k]) >= k + 1
  {
    var lo := r[..k + 1];
    assert r == lo + r[k + 1..];
    CountAppend(lo, r[k + 1..], AtMost, r[k]);
    assert forall i :: 0 <= i < |lo| ==> On(AtMost, lo[i], r[k]);
    CountAll(lo, AtMost, r[k]);
  }

  /** In ascending order, the elements from index `k` on are at least the
      one there. */
  lemma {:induction false} SortedCountAtLeast(r: seq<real>, k: nat)
    requires Ascending(r) && k < |r|
    ensures Count(r, AtLeast, r[k]) >= |r| - k
  {
    var hi := r[k..];
    assert r == r[..k] + hi;
    CountAppend(r[..k], hi, AtLeast, r[k]);
    assert forall i :: 0 <= i < |hi| ==> On(AtLeast, hi[i], r[k]);
    CountAll(hi, AtLeast, r[k]);
  }

  /** The median is one of the ratings; more than half of them (index
      `n/2` and all below it) are at most the median, and at least
      `n - n/2` are at least it. For an even count this makes it the upper
      of the two middle values. */
  lemma MedianSplits(rs: seq<real>)
    requires |rs| > 0
    ensures Median(rs) in rs
    ensures Count(rs, AtMost, Median(rs)) >= |rs| / 2 + 1
    ensures Count(rs, AtLeast, Median(rs)) >= |rs| - |rs| / 2
  {
    var r := SortAsc(rs);
    var m := r[|rs| / 2];
    SortAscSorted(rs);
    SortAscPermutes(rs);
    assert m in multiset(r);
    SortedCountAtMost(r, |rs| / 2);
    SortedCountAtLeast(r, |rs| / 2);
    CountSortAsc(rs, AtMost, m);
    CountSortAsc(rs, AtLeast, m);
  }

  /** On sorted ratings the median is the element at index `n/2`: with
      ratings 7.0 and 8.0 it is 8.0, not their mean. */
  lemma MedianOfSorted(rs: seq<real>)
    requires |rs| > 0 && Ascending(rs)
    ensures Median(rs) == rs[|rs| / 2]
    ensures Median([7.0, 8.0]) == 8.0
  {
    SortAscKeepsSorted(rs);
    SortAscKeepsSorted([7.0, 8.0]);
  }

  // ---------------------------------------------------------------------
  // `max(movies, key=rating)` and `min(movies, key=rating)`: the first
  // entry, in iteration order, with the highest (lowest) rating.

  predicate IsBest(s: seq<Entry>, b: nat)
    requires AllRated(s)
  {
    && b < |s|
    && (forall j :: 0 <= j < |s| ==> RatingOf(s[j]) <= RatingOf(s[b]))
    && (forall j :: 0 <= j < b ==> RatingOf(s[j]) < RatingOf(s[b]))
  }

  predicate IsWorst(s: seq<Entry>, w: nat)
    requires AllRated(s)
  {
    && w < |s|
    && (forall j :: 0 <= j < |s| ==> RatingOf(s[w]) <= RatingOf(s[j]))
    && (forall j :: 0 <= j < w ==> RatingOf(s[w]) < RatingOf(s[j]))
  }

  /** Python's `max` over the first `n` entries: a later entry replaces the
      current best only when its rating is strictly higher. */
  function BestIndex(s: seq<Entry>, n: nat): (b: nat)
    requires AllRated(s) && 0 < n <= |s|
    ensures IsBest(s[..n], b)
  {
    if n == 1 then 0
    else
      var b := BestIndex(s, n - 1);
      assert s[..n - 1] == s[..n][..n - 1];
      if RatingOf(s[n - 1]) > RatingOf(s[b]) then n - 1 else b
  }

  /** Python's `min` over the first `n` entries. */
  function WorstIndex(s: seq<Entry>, n: nat): (w: nat)
    requires AllRated(s) && 0 < n <= |s|
    ensures IsWorst(s[..n], w)
  {
    if n == 1 then 0
    else
      var w := WorstIndex(s, n - 1);
      assert s[..n - 1] == s[..n][..n - 1];
      if RatingOf(s[n - 1]) < RatingOf(s[w]) then n - 1 else w
  }

  /** What the statistics command shows (the average, a float division,
      is not modelled). */
  datatype Stats = NoMovies | Summary(median: real, best: Entry, worst: Entry)

  /** `_command_movie_stats`: nothing is computed for an empty collection;
      otherwise the median of the ratings and the first best and first
      worst rated movies. */
  function MovieStats(c: Catalog): (st: Stats)
    requires AllRated(c)
    ensures st.NoMovies? <==> c == []
  {
    if c == [] then NoMovies
    else Summary(Median(Ratings(c)), c[BestIndex(c, |c|)], c[WorstIndex(c, |c|)])
  }

  /** A non-empty collection's statistics: the median of its ratings, and
      the first of the highest and the first of the lowest rated entries. */
  lemma MovieStatsSpec(c: Catalog)
    requires AllRated(c) && c != []
    ensures var st := MovieStats(c);
      && st.Summary?
      && st.median == Median(Ratings(c))
      && (exists b: nat :: IsBest(c, b) && st.best == c[b])
      && (exists w: nat :: IsWorst(c, w) && st.worst == c[w])
  {
    assert c[..|c|] == c;
  }

  // ---------------------------------------------------------------------
  // `sorted(movies.items(), key=..., reverse=...)`: Python's sort is
  // stable, also with reverse=True.

  datatype SortField = ByRating | ByYear

  predicate HasKey(e: Entry, f: SortField) {
    match f
    case ByRating => e.movie.rating.Some?
    case ByYear => e.movie.year.Some?
  }

  predicate AllKeyed(s: seq<Entry>, f: SortField) {
    forall i :: 0 <= i < |s| ==> HasKey(s[i], f)
  }

  /** The sort key; years are compared as numbers. */
  function Key(e: Entry, f: SortField): real
    requires HasKey(e, f)
  {
    match f
    case ByRating => e.movie.rating.value
    case ByYear => e.movie.year.value as real
  }

  /** `a` may come before `b` in the requested order. */
  predicate Before(a: Entry, b: Entry, f: SortField, descending: bool)
    requires HasKey(a, f) && HasKey(b, f)
  {
    if descending then Key(a, f) >= Key(b, f) else Key(a, f) <= Key(b, f)
  }

  predicate SortedBy(s: seq<Entry>, f: SortField, descending: bool)
    requires AllKeyed(s, f)
  {
    forall i, j :: 0 <= i < j < |s| ==> Before(s[i], s[j], f, descending)
  }

  /** The entries whose key is `k`, in their order in `s`. */
  function WithKey(s: seq<Entry>, f: SortField, k: real): seq<Entry>
  {
    if s == [] then []
    else (if HasKey(s[0], f) && Key(s[0], f) == k then [s[0]] else []) + WithKey(s[1..], f, k)
  }

  /** Inserts `x` before the first element it may precede; since `x` comes
      earlier in the input than every element of `s`, ties keep it first. */
  function InsertBy(x: Entry, s: seq<Entry>, f: SortField, descending: bool): (r: seq<Entry>)
    requires HasKey(x, f) && AllKeyed(s, f)
    ensures |r| == |s| + 1 && AllKeyed(r, f)
    ensures r[0] == x || (s != [] && r[0] == s[0])
  {
    if s == [] || Before(x, s[0], f, descending) then
      [x] + s
    else
      [s[0]] + InsertBy(x, s[1..], f, descending)
  }

  /** Inserting adds `x` and loses nothing. */
  lemma {:induction false} InsertByPermutes(x: Entry, s: seq<Entry>, f: SortField, descending: bool)
    requires HasKey(x, f) && AllKeyed(s, f)
    ensures multiset(InsertBy(x, s, f, descending)) == multiset(s) + multiset{x}
  {
    if s == [] || Before(x, s[0], f, descending) {
      assert InsertBy(x, s, f, descending) == [x] + s;
    } else {
      var r := InsertBy(x, s, f, descending);
      InsertByPermutes(x, s[1..], f, descending);
      assert r[0] == s[0] && r[1..] == InsertBy(x, s[1..], f, descending);
      MultisetCons(r);
      MultisetCons(s);
    }
  }

  /** Inserting into a sorted sequence keeps it sorted. */
  lemma {:induction false} InsertBySorted(x: Entry, s: seq<Entry>, f: SortField, descending: bool)
    requires HasKey(x, f) && AllKeyed(s, f) && SortedBy(s, f, descending)
    ensures SortedBy(InsertBy(x, s, f, descending), f, descending)
  {
    var r := InsertBy(x, s, f, descending);
    if s == [] || Before(x, s[0], f, descending) {
      assert r == [x] + s;
      forall i, j | 0 <= i < j < |r| ensures Before(r[i], r[j], f, descending) {
        assert r[j] == s[j - 1];
        if i > 0 {
          assert r[i] == s[i - 1];
        } else if j > 1 {
          assert Before(s[0], s[j - 1], f, descending);
        }
      }
    } else {
      var t := s[1..];
      assert SortedBy(t, f, descending) by {
        forall i, j | 0 <= i < j < |t| ensures Before(t[i], t[j], f, descending) {
          assert t[i] == s[i + 1] && t[j] == s[j + 1];
        }
      }
      var rest := InsertBy(x, t, f, descending);
      InsertBySorted(x, t, f, descending);
      assert r == [s[0]] + rest;
      assert Before(s[0], rest[0], f, descending);
      forall i, j | 0 <= i < j < |r| ensures Before(r[i], r[j], f, descending) {
        assert r[j] == rest[j - 1];
        if i > 0 {
          assert r[i] == rest[i - 1];
        } else if j > 1 {
          assert Before(rest[0], rest[j - 1], f, descending);
        }
      }
    }
  }

  /** Inserting `x` puts it ahead of the elements of `s` with its key. */
  lemma {:induction false} InsertByWithKey(x: Entry, s: seq<Entry>, f: SortField, descending: bool, k: real)
    requires HasKey(x, f) && AllKeyed(s, f)
    ensures WithKey(InsertBy(x, s, f, descending), f, k) == (if Key(x, f) == k then [x] else []) + WithKey(s, f, k)
  {
    var r := InsertBy(x, s, f, descending);
    if s == [] || Before(x, s[0], f, descending) {
      assert r[0] == x && r[1..] == s;
    } else {
      InsertByWithKey(x, s[1..], f, descending, k);
      InsertPastHeadWithKey(x, s, f, descending, k);
    }
  }

  /** The inductive step of `InsertByWithKey`: when `x` goes past the head
      of `s`, the two cannot share the key `k`, so the order of the two
      among the entries with key `k` is not in question. */
  lemma InsertPastHeadWithKey(x: Entry, s: seq<Entry>, f: SortField, descending: bool, k: real)
    requires HasKey(x, f) && AllKeyed(s, f) && s != [] && !Before(x, s[0], f, descending)
    requires WithKey(InsertBy(x, s[1..], f, descending), f, k) == (if Key(x, f) == k then [x] else []) + WithKey(s[1..], f, k)
    ensures WithKey(InsertBy(x, s, f, descending), f, k) == (if Key(x, f) == k then [x] else []) + WithKey(s, f, k)
  {
    var r := InsertBy(x, s, f, descending);
    var rest := InsertBy(x, s[1..], f, descending);
    var xs := if Key(x, f) == k then [x] else [];
    var head := if Key(s[0], f) == k then [s[0]] else [];
    var tail := WithKey(s[1..], f, k);
    assert WithKey(r, f, k) == head + WithKey(rest, f, k) by {
      assert r[0] == s[0] && r[1..] == rest;
    }
    assert WithKey(s, f, k) == head + tail;
    assert head == [] || xs == [] by {
      if Key(x, f) == k {
        assert Key(s[0], f) != Key(x, f);
      }
    }
  }

  /** The entries sorted by `f` (descending or ascending), stably. */
  function SortBy(s: seq<Entry>, f: SortField, descending: bool): (r: seq<Entry>)
    requires AllKeyed(s, f)
    ensures |r| == |s| && AllKeyed(r, f)
  {
    if s == [] then []
    else InsertBy(s[0], SortBy(s[1..], f, descending), f, descending)
  }

  /** Sorting loses and adds nothing: the result is a permutation. */
  lemma {:induction false} SortByPermutes(s: seq<Entry>, f: SortField, descending: bool)
    requires AllKeyed(s, f)
    ensures multiset(SortBy(s, f, descending)) == multiset(s)
  {
    if s != [] {
      SortByPermutes(s[1..], f, descending);
      InsertByPermutes(s[0], SortBy(s[1..], f, descending), f, descending);
      MultisetCons(s);
    }
  }

  /** The result of sorting is in the requested order. */
  lemma {:induction false} SortBySorted(s: seq<Entry>, f: SortField, descending: bool)
    requires AllKeyed(s, f)
    ensures SortedBy(SortBy(s, f, descending), f, descending)
  {
    if s != [] {
      SortBySorted(s[1..], f, descending);
      InsertBySorted(s[0], SortBy(s[1..], f, descending), f, descending);
    }
  }

  /** Sorting is stable: the entries sharing any one key keep their
      relative order. */
  lemma {:induction false} SortByStable(s: seq<Entry>, f: SortField, descending: bool, k: real)
    requires AllKeyed(s, f)
    ensures WithKey(SortBy(s, f, descending), f, k) == WithKey(s, f, k)
  {
    if s != [] {
      SortByStable(s[1..], f, descending, k);
      InsertByWithKey(s[0], SortBy(s[1..], f, descending), f, descending, k);
    }
  }

  /** `_command_sort_by_rating`: highest rating first, a permutation of
      the entries, equal ratings in their original order. */
  function SortByRating(c: Catalog): (r: seq<Entry>)
    requires AllKeyed(c, ByRating)
    ensures |r| == |c|
  {
    SortBy(c, ByRating, true)
  }

  /** Sorting by rating gives a permutation of the entries in non-increasing
      rating order, equal ratings in their original relative order. */
  lemma SortByRatingSpec(c: Catalog, k: real)
    requires AllKeyed(c, ByRating)
    ensures var r := SortByRating(c);
      && multiset(r) == multiset(c)
      && AllKeyed(r, ByRating)
      && (forall i, j :: 0 <= i < j < |r| ==> r[i].movie.rating.value >= r[j].movie.rating.value)
      && WithKey(r, ByRating, k) == WithKey(c, ByRating, k)
  {
    SortByPermutes(c, ByRating, true);
    SortBySorted(c, ByRating, true);
    SortByStable(c, ByRating, true, k);
  }

  /** `_command_sort_by_year`: latest first when `latestFirst`, oldest first
      otherwise; a permutation, equal years in their original order. */
  function SortByYear(c: Catalog, latestFirst: bool): (r: seq<Entry>)
    requires AllKeyed(c, ByYear)
    ensures |r| == |c|
  {
    SortBy(c, ByYear, latestFirst)
  }

  /** Sorting by year gives a permutation of the entries, latest first or
      oldest first, equal years in their original relative order. */
  lemma SortByYearSpec(c: Catalog, latestFirst: bool, k: real)
    requires AllKeyed(c, ByYear)
    ensures var r := SortByYear(c, latestFirst);
      && multiset(r) == multiset(c)
      && AllKeyed(r, ByYear)
      && (forall i, j :: 0 <= i < j < |r| ==>
            if latestFirst then r[i].movie.year.value >= r[j].movie.year.value
            else r[i].movie.year.value <= r[j].movie.year.value)
      && WithKey(r, ByYear, k) == WithKey(c, ByYear, k)
  {
    SortByPermutes(c, ByYear, latestFirst);
    SortBySorted(c, ByYear, latestFirst);
    SortByStable(c, ByYear, latestFirst, k);
  }

  /** The sort-by-year prompt accepts one letter, 'y' or 'n' in either
      case, with white space around it. */
  predicate AcceptsYesNo(answer: string) {
    var t := Strip(answer);
    |t| == 1 && (LowerChar(t[0]) == 'y' || LowerChar(t[0]) == 'n')
  }

  /** The answer asks for the latest movies first: it is 'y' in either case. */
  predicate LatestFirst(answer: string) {
    var t := Strip(answer);
    |t| == 1 && LowerChar(t[0]) == 'y'
  }

  /** The prompt's test is `ans in ('y', 'n')` on the stripped and
      lower-cased answer, and `reverse` is `ans == 'y'`. */
  lemma YesNoLowered(answer: string)
    ensures AcceptsYesNo(answer) <==> Lower(Strip(answer)) == "y" || Lower(Strip(answer)) == "n"
    ensures LatestFirst(answer) <==> Lower(Strip(answer)) == "y"
  {
    var t := Strip(answer);
    if |t| == 1 {
      assert Lower(t) == [LowerChar(t[0])];
    }
  }

  // ---------------------------------------------------------------------
  // The filter command.

  /** What one criterion prompt made of an input line. */
  datatype Answer<T> = Rejected | NoConstraint | Bound(value: T)

  /** The minimum-rating prompt: blank means no minimum; a number in
      [0.0, 10.0] is accepted; anything else is asked again. */
  function RatingAnswer(parse: string -> Option<real>, input: string): (a: Answer<real>)
    ensures a.Bound? ==> 0.0 <= a.value <= 10.0
  {
    var t := Strip(input);
    if t == [] then NoConstraint
    else match parse(t)
      case None => Rejected
      case Some(v) => if 0.0 <= v <= 10.0 then Bound(v) else Rejected
  }

  /** A rating answer is blank exactly when nothing but white space was
      typed; it is a bound exactly when the stripped text converts to a
      number in [0.0, 10.0], and then it is that number. */
  lemma RatingAnswerSpec(parse: string -> Option<real>, input: string)
    ensures RatingAnswer(parse, input).NoConstraint? <==> Strip(input) == []
    ensures RatingAnswer(parse, input).Bound? <==>
      Strip(input) != [] && parse(Strip(input)).Some? && 0.0 <= parse(Strip(input)).value <= 10.0
    ensures RatingAnswer(parse, input).Bound? ==> parse(Strip(input)) == Some(RatingAnswer(parse, input).value)
  {
  }

  /** A year prompt: blank means no bound; exactly four digits are
      accepted as that year; anything else is asked again. */
  function YearAnswer(input: string): (a: Answer<int>)
    ensures a.Bound? ==> 0 <= a.value <= 9999
  {
    var t := Strip(input);
    if t == [] then NoConstraint
    else if |t| == 4 && forall k :: 0 <= k < 4 ==> IsDigit(t[k]) then
      FourDigits(t);
      Bound(NumeralValue(t))
    else Rejected
  }

  /** A year answer is blank exactly when nothing but white space was
      typed, and a bound exactly when the stripped text is four digits. */
  lemma YearAnswerSpec(input: string)
    ensures YearAnswer(input).NoConstraint? <==> Strip(input) == []
    ensures YearAnswer(input).Bound? <==>
      |Strip(input)| == 4 && forall k :: 0 <= k < 4 ==> IsDigit(Strip(input)[k])
  {
  }

  function Pow10(n: nat): nat {
    if n == 0 then 1 else 10 * Pow10(n - 1)
  }

  /** A string of `n` decimal digits denotes a number below `10^n`. */
  lemma {:induction false} DigitsBelow(t: string)
    requires forall k :: 0 <= k < |t| ==> IsDigit(t[k])
    ensures NumeralValue(t) < Pow10(|t|)
  {
    if t != [] {
      DigitsBelow(t[..|t| - 1]);
    }
  }

  lemma FourDigits(t: string)
    requires |t| == 4 && forall k :: 0 <= k < 4 ==> IsDigit(t[k])
    ensures NumeralValue(t) <= 9999
  {
    DigitsBelow(t);
  }

  /** The accepted criteria; `None` is no constraint. */
  datatype Criteria = Criteria(minRating: Option<real>, startYear: Option<int>, endYear: Option<int>)

  /** The fields a present criterion compares are present. */
  predicate CanCompare(e: Entry, cr: Criteria) {
    && (cr.minRating.Some? ==> e.movie.rating.Some?)
    && (cr.startYear.Some? || cr.endYear.Some? ==> e.movie.year.Some?)
  }

  predicate Comparable(s: seq<Entry>, cr: Criteria) {
    forall i :: 0 <= i < |s| ==> CanCompare(s[i], cr)
  }

  /** The entry meets every present bound: rating at least the minimum,
      year at least the start and at most the end. */
  predicate Meets(e: Entry, cr: Criteria)
    requires CanCompare(e, cr)
  {
    && (cr.minRating.Some? ==> e.movie.rating.value >= cr.minRating.value)
    && (cr.startYear.Some? ==> e.movie.year.value >= cr.startYear.value)
    && (cr.endYear.Some? ==> e.movie.year.value <= cr.endYear.value)
  }

  /** One line of the filter's output: `(title, year, rating)`. */
  datatype Listing = Listing(title: string, year: Option<int>, rating: Option<real>)

  function ListingOf(e: Entry): Listing {
    Listing(e.title, e.movie.year, e.movie.rating)
  }

  /** The entries meeting the criteria, in iteration order. */
  function Selected(s: seq<Entry>, cr: Criteria): seq<Listing>
    requires Comparable(s, cr)
  {
    if s == [] then []
    else
      var last := s[|s| - 1];
      Selected(s[..|s| - 1], cr) + (if Meets(last, cr) then [ListingOf(last)] else [])
  }

  /** The filter keeps exactly the entries meeting every present bound. */
  lemma {:induction false} SelectedMembers(s: seq<Entry>, cr: Criteria, l: Listing)
    requires Comparable(s, cr)
    ensures l in Selected(s, cr) <==> exists i :: 0 <= i < |s| && Meets(s[i], cr) && l == ListingOf(s[i])
  {
    if s != [] {
      var n := |s| - 1;
      SelectedMembers(s[..n], cr, l);
      if l in Selected(s[..n], cr) {
        var i :| 0 <= i < n && Meets(s[..n][i], cr) && l == ListingOf(s[..n][i]);
        assert s[i] == s[..n][i];
      }
      if exists i :: 0 <= i < |s| && Meets(s[i], cr) && l == ListingOf(s[i]) {
        var i :| 0 <= i < |s| && Meets(s[i], cr) && l == ListingOf(s[i]);
        if i < n {
          assert s[..n][i] == s[i];
        }
      }
    }
  }

  /** Filtering runs through the entries in order: the result for `a + b`
      is the result for `a` followed by the result for `b`. */
  lemma {:induction false} SelectedAppend(a: seq<Entry>, b: seq<Entry>, cr: Criteria)
    requires Comparable(a, cr) && Comparable(b, cr)
    ensures Comparable(a + b, cr)
    ensures Selected(a + b, cr) == Selected(a, cr) + Selected(b, cr)
  {
    assert Comparable(a + b, cr) by {
      forall i | 0 <= i < |a + b| ensures CanCompare((a + b)[i], cr) {
        if i >= |a| { assert (a + b)[i] == b[i - |a|]; }
      }
    }
    if b != [] {
      var n := |b| - 1;
      assert (a + b)[..|a + b| - 1] == a + b[..n];
      SelectedAppend(a, b[..n], cr);
    } else {
      assert a + b == a;
    }
  }

  /** With every criterion blank, the filter lists every entry, in order. */
  lemma {:induction false} BlankCriteriaSelectAll(s: seq<Entry>)
    ensures Comparable(s, Criteria(None, None, None))
    ensures Selected(s, Criteria(None, None, None)) == seq(|s|, i requires 0 <= i < |s| => ListingOf(s[i]))
  {
    if s != [] {
      BlankCriteriaSelectAll(s[..|s| - 1]);
    }
  }

  // ---------------------------------------------------------------------
  // Search: the fuzzy ranking is an input; the application keeps at most
  // five of its matches, those scoring at least 50, in ranked order.

  datatype Match = Match(title: string, score: real)

  const SuggestionLimit: nat := 5
  const ScoreThreshold: real := 50.0

  /** The titles of the matches scoring at least the threshold, in order. */
  function Qualifying(ms: seq<Match>): (r: seq<string>)
    ensures |r| <= |ms|
  {
    if ms == [] then []
    else (if ms[0].score >= ScoreThreshold then [ms[0].title] else []) + Qualifying(ms[1..])
  }

  /** `[m for m, score, _ in extract(..., limit=5) if score >= 50]`. */
  function Suggestions(ranked: seq<Match>): (r: seq<string>)
    ensures |r| <= SuggestionLimit
  {
    var top := if |ranked| <= SuggestionLimit then ranked else ranked[..SuggestionLimit];
    Qualifying(top)
  }

  lemma {:induction false} QualifyingMembers(ms: seq<Match>, t: string)
    ensures t in Qualifying(ms) <==> exists i :: 0 <= i < |ms| && ms[i].title == t && ms[i].score >= ScoreThreshold
  {
    if ms != [] {
      QualifyingMembers(ms[1..], t);
      if exists i :: 0 <= i < |ms| && ms[i].title == t && ms[i].score >= ScoreThreshold {
        var i :| 0 <= i < |ms| && ms[i].title == t && ms[i].score >= ScoreThreshold;
        if i > 0 { assert ms[1..][i - 1] == ms[i]; }
      }
      if t in Qualifying(ms[1..]) {
        var i :| 0 <= i < |ms[1..]| && ms[1..][i].title == t && ms[1..][i].score >= ScoreThreshold;
        assert ms[i + 1] == ms[1..][i];
      }
    }
  }

  lemma {:induction false} QualifyingAppend(a: seq<Match>, b: seq<Match>)
    ensures Qualifying(a + b) == Qualifying(a) + Qualifying(b)
  {
    if a == [] {
      assert a + b == b;
    } else {
      var head := if a[0].score >= ScoreThreshold then [a[0].title] else [];
      assert (a + b)[0] == a[0] && (a + b)[1..] == a[1..] + b;
      QualifyingAppend(a[1..], b);
      calc {
        Qualifying(a + b);
        head + Qualifying(a[1..] + b);
        head + (Qualifying(a[1..]) + Qualifying(b));
        (head + Qualifying(a[1..])) + Qualifying(b);
        Qualifying(a) + Qualifying(b);
      }
    }
  }

  /** A title is suggested exactly when it is among the first five ranked
      matches with a score of at least 50. */
  lemma SuggestionsMembers(ranked: seq<Match>, t: string)
    ensures t in Suggestions(ranked) <==>
      exists i :: 0 <= i < |ranked| && i < SuggestionLimit && ranked[i].title == t && ranked[i].score >= ScoreThreshold
  {
    var top := if |ranked| <= SuggestionLimit then ranked else ranked[..SuggestionLimit];
    QualifyingMembers(top, t);
    if exists i :: 0 <= i < |top| && top[i].title == t && top[i].score >= ScoreThreshold {
      var i :| 0 <= i < |top| && top[i].title == t && top[i].score >= ScoreThreshold;
      assert ranked[i] == top[i];
    }
    if exists i :: 0 <= i < |ranked| && i < SuggestionLimit && ranked[i].title == t && ranked[i].score >= ScoreThreshold {
      var i :| 0 <= i < |ranked| && i < SuggestionLimit && ranked[i].title == t && ranked[i].score >= ScoreThreshold;
      assert top[i] == ranked[i];
    }
  }

  /** The suggestions keep the ranked order: they are the qualifying titles
      of the whole ranking with those beyond the first five cut off. */
  lemma SuggestionsPrefix(ranked: seq<Match>)
    requires |ranked| > SuggestionLimit
    ensures Suggestions(ranked) + Qualifying(ranked[SuggestionLimit..]) == Qualifying(ranked)
  {
    var top := ranked[..SuggestionLimit];
    assert ranked == top + ranked[SuggestionLimit..];
    QualifyingAppend(top, ranked[SuggestionLimit..]);
  }

  datatype SearchResult =
    | Exact(title: string, movie: Movie)
    | DidYouMean(suggestions: seq<Entry>)
    | NoSimilar

  /** `_command_search_movie`: the exact key when `term` is one; otherwise
      the suggested titles with their records, or nothing similar. Every
      ranked title is a key, as the ranking is drawn from the keys. */
  function Search(c: Catalog, term: string, ranked: seq<Match>): (r: SearchResult)
    requires forall i :: 0 <= i < |ranked| ==> ranked[i].title in Titles(c)
    ensures r.Exact? <==> term in Titles(c)
  {
    match Get(c, term)
    case Some(m) => Exact(term, m)
    case None =>
      var titles := Suggestions(ranked);
      if titles == [] then NoSimilar
      else
        assert forall i :: 0 <= i < |titles| ==> titles[i] in Titles(c) by {
          forall i | 0 <= i < |titles| ensures titles[i] in Titles(c) {
            SuggestionsMembers(ranked, titles[i]);
          }
        }
        var entries := seq(|titles|, i requires 0 <= i < |titles| => Entry(titles[i], Get(c, titles[i]).value));
        assert Titles(entries) == titles;
        DidYouMean(entries)
  }

  /** The exact key and its record when `term` is a key; otherwise the
      suggested titles in ranked order, each with its record, or nothing
      similar when no title is suggested. */
  lemma SearchSpec(c: Catalog, term: string, ranked: seq<Match>)
    requires forall i :: 0 <= i < |ranked| ==> ranked[i].title in Titles(c)
    ensures var r := Search(c, term, ranked);
      && (r.Exact? ==> r.title == term && Get(c, term) == Some(r.movie))
      && (r.DidYouMean? ==> Titles(r.suggestions) == Suggestions(ranked) && Suggestions(ranked) != [])
      && (r.DidYouMean? ==> forall i :: 0 <= i < |r.suggestions| ==>
            Get(c, r.suggestions[i].title) == Some(r.suggestions[i].movie))
      && (r.NoSimilar? <==> term !in Titles(c) && Suggestions(ranked) == [])
  {
    var r := Search(c, term, ranked);
    if r.DidYouMean? {
      var titles := Suggestions(ranked);
      forall i | 0 <= i < |r.suggestions|
        ensures Get(c, r.suggestions[i].title) == Some(r.suggestions[i].movie)
      {
        SuggestionsMembers(ranked, titles[i]);
      }
    }
  }

  // ---------------------------------------------------------------------

  /** `_command_random_movie`: nothing when the collection is empty;
      otherwise the entry at the drawn position, `pick` reduced to the
      number of entries. */
  function RandomPick(c: Catalog, pick: nat): (r: Option<Entry>)
    ensures r.None? <==> c == []
    ensures r.Some? ==> r.value in c
  {
    if c == [] then None else Some(c[pick % |c|])
  }

  /** Every entry can be the one picked. */
  lemma RandomPickReachesAll(c: Catalog, i: nat)
    requires i < |c|
    ensures RandomPick(c, i) == Some(c[i])
  {
    assert i % |c| == i;
  }
}

=== FILE: Wrappers.dfy ===
/** Failure-carrying value types used across the model: an optional value,
    a value-or-error, and a pass-or-error outcome for operations that
    return nothing in the original program but may raise. */
module Wrappers {

  datatype Option<+T> = None | Some(value: T) {
    /** The value, or `default` when absent (Python's `d.get(k, default)`). */
    function GetOr(default: T): T {
      match this
      case Some(v) => v
      case None => default
    }
  }

  datatype Result<+T, +E> = Ok(value: T) | Err(error: E)

  /** The outcome of an operation that returns nothing on success. */
  datatype Outcome<+E> = Pass | Fail(error: E)
}
